=== FILE: README.md ===
# KlayGE caustics sample, rectangles and packed files — a Dafny model

This project models three parts of the KlayGE engine and proves properties of
them:

- **The caustics-map sample.** `CausticsMapApp::DoUpdate` is a multi-pass
  sequencer. Each frame, passes 0..3 build the caustics map, passes 4..9 draw the
  six shadow-cube faces, and passes 10..15 capture the environment cube. Pass 16
  captures the scene colour, and the last pass refracts everything onto the
  screen. The model also covers:
  - the per-renderable `Pass` technique selectors of the receiving plane, the
    refractive model's meshes and the caustics grid;
  - the face routing of the shadow-map blur filters set up in `InitCubeSM`;
  - the model-selection combo box;
  - the integer bit-packing of plane normals and tangents into 10:10:10:2 and
    8:8:8:8 vertex words.
- **`Rect_T`**, the engine's four-coordinate rectangle value type, over integers.
- **`PackedFile`**, the virtual file that opens an entry of a `.pkt` archive. It
  splits the combined path at its rightmost ".pkt/", extracts the entry into an
  in-memory file, and delegates `Length`/`Read`/`Seek`/`Tell` to that file. The
  archive decoder and the disk are an oracle (`PackedFile.Disk`).

Modules, one per file:

| file | module | models |
|---|---|---|
| `wrappers.dfy` | `Wrappers` | `Option` |
| `rect.dfy` | `Rectangle` | `Rect_T` |
| `mem_file.dfy` | `MemFile` | the in-memory file the packed file extracts into (assumed semantics) |
| `packed_file.dfy` | `PackedFile` | path split, archive oracle, `Open`/`Close`/`Length`/`Read`/`Seek`/`Tell` |
| `cube_faces.dfy` | `CubeFaces` | cube faces and `InitCubeSM` |
| `caustics_passes.dfy` | `CausticsPasses` | `ReceivePlane`, `RefractMesh`/`RefractModel`, `CausticsGrid` and their `Pass` |
| `caustics_update.dfy` | `CausticsUpdate` | `DoUpdate`, one pass at a time, and `ModelSelectionComboBox` |
| `caustics_frame.dfy` | `CausticsFrame` | a whole frame: the passes from 0 until one reports it is finished |
| `vertex_packing.dfy` | `VertexPacking` | the clamp-and-shift packing of normals and tangents |

## Model

| member | source | states |
|---|---|---|
| Rectangle.Intersect | KlayGE/Core/Include/KlayGE/Rect.hpp:112-120 | `&=` gives a rectangle enclosed by both operands that encloses every other rectangle enclosed by both: the greatest lower bound |
| Rectangle.Union | KlayGE/Core/Include/KlayGE/Rect.hpp:121-129 | `\|=` gives a rectangle enclosing both operands that is enclosed by every other rectangle enclosing both: the least upper bound |
| Rectangle.Add | KlayGE/Core/Include/KlayGE/Rect.hpp:100-105 | Rect `+=` adds the operands' widths and heights |
| Rectangle.Sub | KlayGE/Core/Include/KlayGE/Rect.hpp:106-111 | Rect `-=` subtracts the operands' widths and heights |
| Rectangle.Negate | KlayGE/Core/Include/KlayGE/Rect.hpp:152-153 | unary `-` negates both extents and keeps emptiness |
| Rectangle.Width | KlayGE/Core/Include/KlayGE/Rect.hpp:156-157 | `Width()` added to the left edge gives the right edge, and it is zero exactly when the two edges coincide |
| Rectangle.Height | KlayGE/Core/Include/KlayGE/Rect.hpp:158-159 | `Height()` added to the top edge gives the bottom edge, and it is zero exactly when the two edges coincide |
| Rectangle.IsEmpty | KlayGE/Core/Include/KlayGE/Rect.hpp:162-163 | `IsEmpty()` holds exactly when width and height are both zero |
| Rectangle.Size | KlayGE/Core/Include/KlayGE/Rect.hpp:156-161 | `Size()` is the (0, 0) pair exactly when the rectangle is empty; adding it to the top-left corner gives the bottom-right corner |
| Rectangle.Equal | KlayGE/Core/Include/KlayGE/Rect.hpp:169-175 | `==` holds exactly when the rectangles are the same value |
| Rectangle.NotEqual | KlayGE/Core/Include/KlayGE/Rect.hpp:176-181 | `!=` is the negation of `==` and holds exactly for different values |
| Rectangle.IntersectIdempotent | KlayGE/Core/Include/KlayGE/Rect.hpp:112-120 | `A & A == A` |
| Rectangle.UnionIdempotent | KlayGE/Core/Include/KlayGE/Rect.hpp:121-129 | `A \| A == A` |
| Rectangle.IntersectCommutative | KlayGE/Core/Include/KlayGE/Rect.hpp:112-120 | `A & B == B & A` |
| Rectangle.UnionCommutative | KlayGE/Core/Include/KlayGE/Rect.hpp:121-129 | `A \| B == B \| A` |
| Rectangle.IntersectAssociative | KlayGE/Core/Include/KlayGE/Rect.hpp:112-120 | `(A & B) & C == A & (B & C)` |
| Rectangle.UnionAssociative | KlayGE/Core/Include/KlayGE/Rect.hpp:121-129 | `(A \| B) \| C == A \| (B \| C)` |
| Rectangle.Absorption | KlayGE/Core/Include/KlayGE/Rect.hpp:112-129 | `A & (A \| B) == A` and `A \| (A & B) == A`, so the two operations form a lattice |
| Rectangle.IntersectionStableUnderSelfUnion | KlayGE/Core/Include/KlayGE/Rect.hpp:112-129 | `(A & B) \| (A & B) == A & B` |
| Rectangle.IntersectIsOrder | KlayGE/Core/Include/KlayGE/Rect.hpp:112-129 | `A & B == B`, and also `A \| B == A`, each exactly when A encloses B |
| Rectangle.ExtentBounds | KlayGE/Core/Include/KlayGE/Rect.hpp:112-129 | an intersection is no wider or taller than either operand, and a union no narrower or shorter |
| Rectangle.NegateInvolution | KlayGE/Core/Include/KlayGE/Rect.hpp:152-153 | `-(-A) == A` |
| Rectangle.NegateSwapsIntersectUnion | KlayGE/Core/Include/KlayGE/Rect.hpp:112-153 | negation turns `&` into `\|` and `\|` into `&` |
| Rectangle.AddSubRoundTrip | KlayGE/Core/Include/KlayGE/Rect.hpp:100-111 | `(A + B) - B == A` and `(A - B) + B == A` |
| Rectangle.AddCommutative | KlayGE/Core/Include/KlayGE/Rect.hpp:100-105 | `A + B == B + A` |
| Rectangle.IsEmptyIffZeroExtents | KlayGE/Core/Include/KlayGE/Rect.hpp:156-163 | `IsEmpty()` holds exactly when width and height are both zero |
| Rectangle.ZeroWidthNotEmpty | KlayGE/Core/Include/KlayGE/Rect.hpp:162-163 | a zero-width rectangle of non-zero height is not empty |
| MemFile.Empty | KlayGE/Plugins/Src/FileSystem/PackedFile/PackedFile.cpp:57 | a new in-memory file is open, with length 0 and cursor 0 |
| MemFile.Write | KlayGE/Plugins/Src/FileSystem/PackedFile/PackedFile.cpp:61 | writing puts the bytes at the cursor, keeps the bytes before it, and moves the cursor past them |
| MemFile.Rewind | KlayGE/Plugins/Src/FileSystem/PackedFile/PackedFile.cpp:62 | rewinding moves the cursor to 0 and keeps the data |
| MemFile.Read | KlayGE/Plugins/Src/FileSystem/PackedFile/PackedFile.cpp:85-90 | reading returns the next `min(count, remaining)` bytes after the cursor and advances the cursor by that many |
| MemFile.Seek | KlayGE/Plugins/Src/FileSystem/PackedFile/PackedFile.cpp:92-95 | seeking keeps the data and returns the new cursor, which is `off` from the start when in range and the end for a seek from the end |
| MemFile.Close | KlayGE/Plugins/Src/FileSystem/PackedFile/PackedFile.cpp:76 | closing marks the file closed and keeps its data and cursor |
| MemFile.WriteRewindHoldsExactly | KlayGE/Plugins/Src/FileSystem/PackedFile/PackedFile.cpp:57-62 | a new file that is written and then rewound holds exactly the written bytes, with the cursor at 0 |
| MemFile.ReadAllFromStart | KlayGE/Plugins/Src/FileSystem/PackedFile/PackedFile.cpp:85-90 | reading the whole length from position 0 returns all the data |
| PackedFile.LastBelow | KlayGE/Plugins/Src/FileSystem/PackedFile/PackedFile.cpp:35 | the index found is an occurrence below the bound with no later occurrence below it; if nothing is found, nothing occurs below the bound |
| PackedFile.RFind | KlayGE/Plugins/Src/FileSystem/PackedFile/PackedFile.cpp:35 | `rfind(".pkt/")` finds the rightmost occurrence, or reports that there is none |
| PackedFile.SplitPath | KlayGE/Plugins/Src/FileSystem/PackedFile/PackedFile.cpp:35-37 | with the marker, the path is archive + "/" + entry, where the archive name ends in ".pkt" and the entry contains no ".pkt/" |
| PackedFile.SplitJoin | KlayGE/Plugins/Src/FileSystem/PackedFile/PackedFile.cpp:35-37 | splitting a joined archive/entry path gives back both names: the split inverts the join |
| PackedFile.WrapSize | KlayGE/Plugins/Src/FileSystem/PackedFile/PackedFile.cpp:36-37 | `size_t` sums are unchanged when below 2^64, and a sum between 2^64 and 2^65 wraps to the sum minus 2^64, so `npos + 4` is 3 and `npos + 5` is 4 |
| PackedFile.Substr | KlayGE/Plugins/Src/FileSystem/PackedFile/PackedFile.cpp:36-37 | `substr(pos, n)` throws exactly when `pos` is past the end; otherwise it returns the at most `n` characters at `pos`, stopping early only at the end of the string |
| PackedFile.SplitAsWritten | KlayGE/Plugins/Src/FileSystem/PackedFile/PackedFile.cpp:35-37 | with the marker it agrees with `SplitPath`. Without it, the offsets wrap: it throws exactly for paths shorter than 4 characters, and otherwise names a 3-character, non-".pkt" archive and drops the character at index 3 |
| PackedFile.Fresh | KlayGE/Plugins/Src/FileSystem/PackedFile/PackedFile.cpp:24-26 | a default-constructed adapter holds no archive and no file |
| PackedFile.Close | KlayGE/Plugins/Src/FileSystem/PackedFile/PackedFile.cpp:72-78 | `Close` closes the in-memory file and keeps its data when there is one; otherwise it changes nothing |
| PackedFile.Open | KlayGE/Plugins/Src/FileSystem/PackedFile/PackedFile.cpp:33-70 | see the list after this table |
| PackedFile.Length | KlayGE/Plugins/Src/FileSystem/PackedFile/PackedFile.cpp:80-83 | `Length` is the number of bytes extracted |
| PackedFile.Tell | KlayGE/Plugins/Src/FileSystem/PackedFile/PackedFile.cpp:97-100 | `Tell` never exceeds `Length` |
| PackedFile.Read | KlayGE/Plugins/Src/FileSystem/PackedFile/PackedFile.cpp:85-90 | `Read` returns at most `count` bytes, which are the bytes from the old cursor to the new one. A short read ends at the end of the data. Only the cursor changes, so the file stays open for the next read |
| PackedFile.Seek | KlayGE/Plugins/Src/FileSystem/PackedFile/PackedFile.cpp:92-95 | `Seek` returns the new cursor, which is within the data. Seeking from the start to an offset inside the data lands on that offset, and seeking from the end lands on the length. Only the cursor changes |
| PackedFile.MissingArchiveChangesNothing | KlayGE/Plugins/Src/FileSystem/PackedFile/PackedFile.cpp:39-43 | opening through an archive the disk cannot open returns false and leaves the adapter exactly as it was |
| PackedFile.NoMarkerNeverOpens | KlayGE/Plugins/Src/FileSystem/PackedFile/PackedFile.cpp:35-43 | a path without ".pkt/" either throws (when shorter than 4 characters) or, when the disk holds only "*.pkt" archives, fails and leaves the adapter unchanged |
| PackedFile.OpenReadRoundTrip | KlayGE/Plugins/Src/FileSystem/PackedFile/PackedFile.cpp:33-90 | an entry stored with some bytes, opened through its combined path, has those bytes' length, cursor 0, and reads back as exactly those bytes |
| PackedFile.SeekStartReadsAll | KlayGE/Plugins/Src/FileSystem/PackedFile/PackedFile.cpp:80-95 | after any reads, seeking to the start and reading `Length` bytes returns the whole entry again |
| CubeFaces.FilterTarget | KlayGE/Samples/src/CausticsMap/CausticsMap.cpp:796-811 | filter `i` writes a Y face exactly when `i` is a Y face, and writes its own face exactly when flipping is required or `i` is not a Y face |
| CubeFaces.InitCubeSM | KlayGE/Samples/src/CausticsMap/CausticsMap.cpp:791-813 | the six-entry routing table sends filter `i` to `FilterTarget(i, flip)`: it swaps +Y and -Y when no flip is required. It fixes face `i` exactly when flipping is required or `i` is not a Y face, and every face is written by some filter |
| CubeFaces.FilterTargetInvolution | KlayGE/Samples/src/CausticsMap/CausticsMap.cpp:797-811 | routing twice returns the original face |
| CubeFaces.FilterTargetInjective | KlayGE/Samples/src/CausticsMap/CausticsMap.cpp:791-813 | no two filters write the same cube face |
| CausticsPasses.PlaneInitAsWritten | KlayGE/Samples/src/CausticsMap/CausticsMap.cpp:140-147 | the constructor as written keeps a technique that validates, but records the preferred technique as the default whatever validation said; technique and default agree exactly when the preferred one validates |
| CausticsPasses.PlaneInit | KlayGE/Samples/src/CausticsMap/CausticsMap.cpp:140-147 | the corrected constructor records the validated technique as the default; the default is the preferred technique exactly when that one validates |
| CausticsPasses.PlanePass | KlayGE/Samples/src/CausticsMap/CausticsMap.cpp:181-196 | `ReceivePlane::Pass` records the pass and changes only the technique: the position technique exactly for the position pass, the shadow technique exactly for the shadow pass, and the default technique exactly for every other pass |
| CausticsPasses.PlanePasses | KlayGE/Samples/src/CausticsMap/CausticsMap.cpp:181-196 | any sequence of pass switches keeps the plane's default technique |
| CausticsPasses.AsWrittenDefaultPassRestoresInvalidTechnique | KlayGE/Samples/src/CausticsMap/CausticsMap.cpp:141-195 | as written, on a device where the preferred technique fails validation, the plane starts with a technique that validates; the first default-pass switch gives it back the one that does not |
| CausticsPasses.PlaneTechniqueAlwaysValidates | KlayGE/Samples/src/CausticsMap/CausticsMap.cpp:140-196 | with the corrected constructor, the plane's technique validates after every sequence of pass switches |
| CausticsPasses.PlanePassesKeepValidity | KlayGE/Samples/src/CausticsMap/CausticsMap.cpp:181-196 | if the current and default techniques validate, they still validate after any sequence of pass switches |
| CausticsPasses.RefractInit | KlayGE/Samples/src/CausticsMap/CausticsMap.cpp:271-287 | a refractive model starts with no pass and no technique of its own |
| CausticsPasses.MeshPass | KlayGE/Samples/src/CausticsMap/CausticsMap.cpp:360-382 | `RefractMesh::Pass`, which `RefractModel::Pass` applies to every mesh, records the pass. It selects the front, back, shadow or refraction technique for those four passes and keeps the previous technique for every other pass |
| CausticsPasses.UnlistedPassKeepsLastTechnique | KlayGE/Samples/src/CausticsMap/CausticsMap.cpp:360-382 | after a listed pass, an unlisted pass keeps that pass's technique but records the new pass |
| CausticsPasses.GridInit | KlayGE/Samples/src/CausticsMap/CausticsMap.cpp:448-483 | the grid starts with no pass and no technique |
| CausticsPasses.GridPass | KlayGE/Samples/src/CausticsMap/CausticsMap.cpp:485-496 | `CausticsGrid::Pass` records the pass, selects the single- or dual-face technique for those passes, and keeps the previous technique otherwise |
| CausticsPasses.SelectorsAgree | KlayGE/Samples/src/CausticsMap/CausticsMap.cpp:181-196 | in the shadow pass the plane and the meshes both draw with the cube-shadow technique; the default and refraction passes both give the plane its default technique |
| CausticsUpdate.DoUpdateAsWritten | KlayGE/Samples/src/CausticsMap/CausticsMap.cpp:959-1122 | the as-written sequencer keeps the model choice, the dual-face setting and the environment probe, reports the frame finished exactly from pass 17 on, and applies shadow filter `f` exactly at pass `f + 5` for `f` in 0..4, so never for face 5 |
| CausticsUpdate.DoUpdate | KlayGE/Samples/src/CausticsMap/CausticsMap.cpp:959-1122 | the corrected sequencer keeps the selected model, the dual-face setting and where the environment light was placed, and reports "finished" exactly from pass 17 on |
| CausticsUpdate.SignalSchedule | KlayGE/Samples/src/CausticsMap/CausticsMap.cpp:973-1121 | each pass reports "flushed" exactly at pass 3, and at pass 2 without dual-face; every other pass asks for a flush |
| CausticsUpdate.VisibilitySchedule | KlayGE/Samples/src/CausticsMap/CausticsMap.cpp:964-1121 | the sky box is visible exactly in passes 10..16. The selected model is visible exactly in passes 1, 2 (with dual-face), 4..9 and 17 on. The plane is hidden only in pass 1, and passes 0, 2 and 3 leave its visibility as it was. The unselected model and its meshes are never touched |
| CausticsUpdate.EventSchedule | KlayGE/Samples/src/CausticsMap/CausticsMap.cpp:983-1061 | passes 4..9 use the shadow camera of face `pass - 4`; in the corrected sequencer, shadow filter `f` runs exactly at pass `f + 5`; the occlusion query begins exactly at pass 1 and ends exactly at pass 2 |
| CausticsUpdate.PassZero | KlayGE/Samples/src/CausticsMap/CausticsMap.cpp:973-981 | pass 0 draws the plane's positions into the background buffer from the spot light's camera and asks for a flush |
| CausticsUpdate.PassOne | KlayGE/Samples/src/CausticsMap/CausticsMap.cpp:983-995 | pass 1 hides the plane and sky box, draws the model's front faces into the front buffer, and begins the occlusion query |
| CausticsUpdate.PassTwo | KlayGE/Samples/src/CausticsMap/CausticsMap.cpp:997-1012 | pass 2 always ends the occlusion query. With dual-face on, it draws back faces into the back buffer and asks for a flush. With it off, it changes nothing but the initial hides and reports flushed |
| CausticsUpdate.PassThree | KlayGE/Samples/src/CausticsMap/CausticsMap.cpp:1014-1034 | pass 3 chooses the dual-face technique exactly when dual-face is on, binds the caustics buffer, reads the occlusion result, draws the grid, blurs the caustics map and reports flushed |
| CausticsUpdate.ShadowPasses | KlayGE/Samples/src/CausticsMap/CausticsMap.cpp:1037-1061 | passes 4..9 draw face `pass - 4` into the shadow buffer from the stand-in light, with plane and model in their shadow techniques; each pass after 4 first blurs face `pass - 5` |
| CausticsUpdate.ShadowFilterLag | KlayGE/Samples/src/CausticsMap/CausticsMap.cpp:1037-1061 | the face a shadow pass blurs is the face the previous pass drew |
| CausticsUpdate.EnvironmentPasses | KlayGE/Samples/src/CausticsMap/CausticsMap.cpp:1064-1102 | passes 10..15 bind environment face `pass - 10` and pass 16 the scene buffer. All of them hide the model, show plane and sky box, and shade the plane with its default technique, the shadow cube and the filtered caustics map |
| CausticsUpdate.FinalPass | KlayGE/Samples/src/CausticsMap/CausticsMap.cpp:1105-1121 | every pass from 17 on draws to the screen, without the sky box, with the model refracting the scene texture and environment cube, copies to the screen, and reports finished |
| CausticsUpdate.DualFaceOnlyAffectsPassesTwoAndThree | KlayGE/Samples/src/CausticsMap/CausticsMap.cpp:997-1034 | outside passes 2 and 3, the dual-face setting changes nothing a pass does |
| CausticsUpdate.AsWrittenNeverFiltersLastShadowFace | KlayGE/Samples/src/CausticsMap/CausticsMap.cpp:1037-1084 | as written, no pass ever blurs shadow face 5 into the cube |
| CausticsUpdate.CorrectionOnlyAddsLastFilter | KlayGE/Samples/src/CausticsMap/CausticsMap.cpp:1037-1084 | at every pass the corrected sequencer leaves the as-written state and signals; its events are the as-written ones, plus the blur of face 5 in front at pass 10. So the schedule lemmas about states and signals hold for the code as written |
| CausticsUpdate.CorrectedFiltersLastShadowFace | KlayGE/Samples/src/CausticsMap/CausticsMap.cpp:1037-1084 | corrected, pass 10 blurs face 5, which pass 9 drew |
| CausticsUpdate.SelectModel | KlayGE/Samples/src/CausticsMap/CausticsMap.cpp:925-943 | entry 0 selects the sphere and any other entry the bunny. The old model is hidden, the new one shown, every object other than the old and the new model keeps its visibility (so re-selecting the current model leaves the other model as it was), and the environment light moves to the new model |
| CausticsUpdate.OnlySelectedModelShownPreserved | KlayGE/Samples/src/CausticsMap/CausticsMap.cpp:925-965 | neither model selection nor any pass ever shows the unselected model |
| CausticsFrame.Run | KlayGE/Samples/src/CausticsMap/CausticsMap.cpp:959-1122 | for any update function that finishes exactly from pass 17 on, the host loop from pass `p` runs `18 - p` passes, and "finished" is reported on the last of them and no other |
| CausticsFrame.StateAt | KlayGE/Samples/src/CausticsMap/CausticsMap.cpp:959-1122 | the state handed to a later pass keeps the model choice and the dual-face setting, for any update function that keeps them |
| CausticsFrame.RunAt | KlayGE/Samples/src/CausticsMap/CausticsMap.cpp:959-1122 | update `i` of a run is the update function at pass `p + i`, applied to the state the earlier passes left |
| CausticsFrame.DoUpdateIsHostable | KlayGE/Samples/src/CausticsMap/CausticsMap.cpp:959-1122 | the sample's `DoUpdate` finishes exactly from pass 17 on and keeps the settings, so the host loop can drive it |
| CausticsFrame.RunFrom | KlayGE/Samples/src/CausticsMap/CausticsMap.cpp:959-1122 | from pass `p`, the host loop runs the sample for `18 - p` passes, and "finished" is reported on the last of them and no other |
| CausticsFrame.RunFromAt | KlayGE/Samples/src/CausticsMap/CausticsMap.cpp:959-1122 | update `i` of the sample's run is its `DoUpdate` at pass `p + i`, on a state with the run's model choice and dual-face setting |
| CausticsFrame.RunFromKeepsSettings | KlayGE/Samples/src/CausticsMap/CausticsMap.cpp:959-1122 | every pass of a run keeps the selected model and the dual-face setting |
| CausticsFrame.RunFromFlushes | KlayGE/Samples/src/CausticsMap/CausticsMap.cpp:973-1121 | across a run, "flushed" is reported exactly at pass 3, and at pass 2 when dual-face is off; every other pass asks for a flush |
| CausticsFrame.RunFromShadowFilters | KlayGE/Samples/src/CausticsMap/CausticsMap.cpp:1037-1084 | across a corrected run, each of the six shadow faces is blurred exactly once, at pass `face + 5` |
| CausticsFrame.RunFromShadowCameras | KlayGE/Samples/src/CausticsMap/CausticsMap.cpp:1037-1061 | across a run, shadow face `f` is drawn at pass `f + 4` from the stand-in light's camera for face `f` |
| CausticsFrame.RunFromEnd | KlayGE/Samples/src/CausticsMap/CausticsMap.cpp:1105-1121 | a run ends showing the selected model and the plane, without the sky box |
| CausticsFrame.Frame | KlayGE/Samples/src/CausticsMap/CausticsMap.cpp:959-1122 | a frame has 18 passes |
| CausticsFrame.AsWrittenIsHostable | KlayGE/Samples/src/CausticsMap/CausticsMap.cpp:959-1122 | the as-written sequencer also finishes exactly from pass 17 on and keeps the settings, so the host loop drives it too |
| CausticsFrame.RunFromAsWritten | KlayGE/Samples/src/CausticsMap/CausticsMap.cpp:959-1122 | the as-written run from a pass has `18 - pass` updates, and only its last one reports the frame finished |
| CausticsFrame.StateAtAgree | KlayGE/Samples/src/CausticsMap/CausticsMap.cpp:959-1122 | the corrected and the as-written runs hand every pass the same state |
| CausticsFrame.RunFromAsWrittenAgrees | KlayGE/Samples/src/CausticsMap/CausticsMap.cpp:1037-1084 | the as-written run has the corrected run's length, states and signals at every update, and its events at every pass except 10. So the frame lemmas on settings, flushes, shadow cameras, the final state and the caustics technique describe the code as written |
| CausticsFrame.AsWrittenFrameNeverFiltersLastShadowFace | KlayGE/Samples/src/CausticsMap/CausticsMap.cpp:1043-1084 | no update of an as-written frame blurs shadow face 5 |
| CausticsFrame.FrameFiltersEveryCubeFace | KlayGE/Samples/src/CausticsMap/CausticsMap.cpp:791-813 | with the routing `InitCubeSM` sets up, the filter that writes cube face `t` runs exactly once in a corrected frame, at pass `filter + 5`, so each face of the shadow cube is blurred once per frame |
| CausticsFrame.RunFromCausticsTechnique | KlayGE/Samples/src/CausticsMap/CausticsMap.cpp:1014-1034 | in a run, the caustics pass 3 uses the dual-face technique exactly when dual-face is on, and the single-face technique exactly when it is off |
| VertexPacking.Clamp | KlayGE/Samples/src/CausticsMap/CausticsMap.cpp:94-96 | the clamp to [0, hi] on an unsigned value is at most `hi`: the value itself when it is within range, `hi` otherwise |
| VertexPacking.NormalA2BGR10 | KlayGE/Samples/src/CausticsMap/CausticsMap.cpp:92-97 | bits 0..9, 10..19 and 20..29 of the packed normal hold the clamped x, y and z, and bits 30..31 are zero |
| VertexPacking.TangentA2BGR10 | KlayGE/Samples/src/CausticsMap/CausticsMap.cpp:98-104 | as for the normal, with the w component clamped to 3 in bits 30..31 |
| VertexPacking.NormalARGB8 | KlayGE/Samples/src/CausticsMap/CausticsMap.cpp:112-117 | bytes 2, 1 and 0 of the packed normal hold the clamped x, y and z, and byte 3 is zero |
| VertexPacking.TangentARGB8 | KlayGE/Samples/src/CausticsMap/CausticsMap.cpp:118-124 | as for the normal, with the clamped w in byte 3 |
| VertexPacking.NormalIsTangentWithZeroW | KlayGE/Samples/src/CausticsMap/CausticsMap.cpp:92-124 | in both layouts a normal packs like a tangent whose w is 0 |
| VertexPacking.TangentA2BGR10Injective | KlayGE/Samples/src/CausticsMap/CausticsMap.cpp:98-104 | components already within their 10:10:10:2 ranges are packed without loss |
| VertexPacking.TangentARGB8Injective | KlayGE/Samples/src/CausticsMap/CausticsMap.cpp:118-124 | components already within 0..255 are packed without loss |

What the contract of `PackedFile.Open` states:

- `Open` throws exactly when the as-written split throws.
- Otherwise it returns true exactly when the archive opens, decodes, holds the
  entry and the entry extracts.
- On success the adapter holds that archive and an open in-memory file of exactly
  the entry's bytes, at position 0.
- An archive the disk cannot open changes nothing.
- Once the archive opens, the adapter holds it, even on failure.

## Left out

- The drawing itself is not modelled: D3D9 and OpenGL render windows, effects,
  techniques' GPU state, frame-buffer clears, effect parameters and textures'
  contents. Techniques, textures, lights and frame buffers are abstract
  identifiers.
- The float side of the sample is not modelled: light positions, cameras'
  matrices, the refraction index, the light-density and point-size sliders, and
  the `float`→`uint32_t` cast of scaled normal and tangent components. The
  packing starts from the already cast 32-bit values.
- VertexPacking.Clamp: takes only the upper bound, because every call passes 0
  as the lower bound and on `uint32_t` that bound never binds.
- The host loop of `App3DFramework` is not part of this model. `CausticsFrame.Run`
  stands for it: it asks for pass 0, 1, … until a pass reports "finished", and it
  ignores the flush flags.
- `DualFaceCausticsCheckBoxHandler` only sets the dual-face flag. It appears as
  the field update `a.(dualFace := …)` in
  `CausticsUpdate.DualFaceOnlyAffectsPassesTwoAndThree`, not as a member of its
  own.
- `ModelSelectionComboBox` places the environment light at the model's
  transformed bound centre. The model records only which model the light was
  placed at (`envProbe`).
- Unary `+` on a rectangle (Rect.hpp:150-151) returns its operand and is not
  modelled as a member.
- CausticsPasses.RefractInit and CausticsPasses.GridInit: the constructors of
  `RefractMesh` and `CausticsGrid` never initialise `pass_`; the model writes
  that unset pass as `None`.
- Rectangle.Add, Rectangle.Sub, Rectangle.Negate, Rectangle.Width,
  Rectangle.Height and Rectangle.Size: use unbounded integers, so the
  wrap-around of a fixed-width `T` is not modelled.
- Rect `+=`/`-=` of a `Vector_T` is not modelled, because `Vector_T` is not part
  of this model. Copy construction and assignment are the identity on values.
- The in-memory and disk file classes are not part of this model. `MemFile` gives
  the in-memory file the conventional semantics of a growable byte buffer with a
  cursor. The disk file and the archive decoder are the `PackedFile.Disk`
  oracle, and decoder exceptions are the oracle's `Corrupt` and `ExtractFails`
  outcomes.
- MemFile.Close: the model assumes a closed in-memory file keeps its bytes and
  cursor, which differs from a design where Close releases the in-memory copy.
  So after a close, PackedFile.Length, PackedFile.Tell and PackedFile.Seek
  still return the old file's values (for example after an `Open` that finds
  the archive but not the entry). Only Read requires the file to be open.
- PackedFile.Open: assumes strings shorter than `npos` characters, which
  `std::string` guarantees. For an entry of zero bytes, `&data[0]` indexes an
  empty vector. That is undefined in C++; the model treats it as extracting
  nothing.
- PackedFile.Read, PackedFile.Length, PackedFile.Seek and PackedFile.Tell:
  require an in-memory file. The source dereferences `file_` unchecked, so
  calling them before a successful `Open` is undefined. Read also requires
  the in-memory file to be open, that is, not closed by Close.

## Findings

| source | as written | input that shows it | evidently intended | confidence | as-written member | corrected member |
|---|---|---|---|---|---|---|
| KlayGE/Samples/src/CausticsMap/CausticsMap.cpp:1043-1084 | each shadow pass 5..9 blurs the face the previous pass drew, but no pass after pass 9 blurs face 5 (-Z) | any frame: pass 9 draws face 5 and passes 10..16 apply no shadow filter | the first environment pass blurs face 5 into the shadow cube, so that all six faces are filtered before the cube is sampled | not executed | CausticsUpdate.AsWrittenNeverFiltersLastShadowFace | CausticsFrame.RunFromShadowFilters |
| KlayGE/Samples/src/CausticsMap/CausticsMap.cpp:141-195 | `default_tech_` is recorded before the validation fallback, so it is always "DistanceMapping2a" | a device where "DistanceMapping2a" fails `Validate()`: after `Pass(Default_Pass)` the plane draws with that technique again | `default_tech_` is the technique that survived validation | not executed | CausticsPasses.AsWrittenDefaultPassRestoresInvalidTechnique | CausticsPasses.PlaneTechniqueAlwaysValidates |

=== FILE: caustics_frame.dfy ===
/** One frame of the caustics sample as the host loop drives it: pass 0,
    then 1, 2, ... with the state each pass leaves behind, until a pass
    reports the frame finished. The loop is generic over the application's
    update function, as the framework's is; the sample's `DoUpdate` is then
    plugged in. */
module CausticsFrame {
  import opened Wrappers
  import opened CubeFaces
  import opened CausticsPasses
  import opened CausticsUpdate

  /** An application's per-pass update function. */
  type Step = (App, Uint32) -> Update

  /** The last pass of a frame. */
  const LastPass: nat := 17

  /** The step reports the frame finished exactly from the last pass on. */
  ghost predicate FinishesAtLastPass(step: Step) {
    forall a: App, pass: Uint32 :: Finished in step(a, pass).signal <==> pass >= LastPass
  }

  /** The step keeps the model choice and the dual-face setting. */
  ghost predicate KeepsSettings(step: Step) {
    forall a: App, pass: Uint32 ::
      step(a, pass).app.selected == a.selected && step(a, pass).app.dualFace == a.dualFace
  }

  // ---------------------------------------------------------------------
  // The host loop, for any step

  /** The updates of the passes from `pass` to the end of the frame: the
      host asks for the next pass until one reports the frame finished. */
  function Run(step: Step, a: App, pass: nat): (r: seq<Update>)
    requires FinishesAtLastPass(step) && pass <= LastPass
    ensures |r| == LastPass + 1 - pass
    ensures forall i :: 0 <= i < |r| ==> (Finished in r[i].signal <==> i == |r| - 1)
    decreases LastPass - pass
  {
    var u := step(a, pass);
    if Finished in u.signal then [u] else [u] + Run(step, u.app, pass + 1)
  }

  /** The state the host hands to pass `pass + i` of a run started at `pass`. */
  function StateAt(step: Step, a: App, pass: nat, i: nat): (s: App)
    requires KeepsSettings(step) && pass + i <= LastPass
    ensures s.selected == a.selected && s.dualFace == a.dualFace
    decreases i
  {
    if i == 0 then a else StateAt(step, step(a, pass).app, pass + 1, i - 1)
  }

  /** Update `i` of a run is pass `pass + i` applied to the state the earlier
      passes leave behind. */
  lemma {:induction false} RunAt(step: Step, a: App, pass: nat, i: nat)
    requires FinishesAtLastPass(step) && KeepsSettings(step) && pass + i <= LastPass
    ensures i < |Run(step, a, pass)|
    ensures Run(step, a, pass)[i] == step(StateAt(step, a, pass, i), pass + i)
    decreases i
  {
    if i > 0 {
      var u := step(a, pass);
      assert Finished !in u.signal;
      RunAt(step, u.app, pass + 1, i - 1);
      assert Run(step, a, pass)[i] == Run(step, u.app, pass + 1)[i - 1];
    }
  }

  // ---------------------------------------------------------------------
  // The sample's frame

  /** The sample's update finishes at the last pass and keeps the settings. */
  lemma DoUpdateIsHostable()
    ensures FinishesAtLastPass(DoUpdate) && KeepsSettings(DoUpdate)
  {
  }

  /** The sample's updates from pass `pass` to the end of the frame. */
  function RunFrom(a: App, pass: nat): (r: seq<Update>)
    requires pass <= LastPass
    ensures |r| == 18 - pass
    ensures forall i :: 0 <= i < |r| ==> (Finished in r[i].signal <==> i == |r| - 1)
  {
    DoUpdateIsHostable();
    Run(DoUpdate, a, pass)
  }

  /** A whole frame, from pass 0. */
  function Frame(a: App): (r: seq<Update>)
    ensures |r| == 18
  {
    RunFrom(a, 0)
  }

  /** Update `i` of the sample's run is its `DoUpdate` at pass `pass + i`,
      on a state with the run's model choice and dual-face setting. */
  lemma RunFromAt(a: App, pass: nat, i: nat)
    requires pass + i <= LastPass
    ensures i < |RunFrom(a, pass)|
    ensures RunFrom(a, pass)[i] == DoUpdate(StateAt(DoUpdate, a, pass, i), pass + i)
    ensures StateAt(DoUpdate, a, pass, i).selected == a.selected
    ensures StateAt(DoUpdate, a, pass, i).dualFace == a.dualFace
  {
    DoUpdateIsHostable();
    RunAt(DoUpdate, a, pass, i);
  }

  /** Every update of a run keeps the model choice and the dual-face setting. */
  lemma RunFromKeepsSettings(a: App, pass: nat)
    requires pass <= LastPass
    ensures forall i :: 0 <= i < |RunFrom(a, pass)| ==>
              RunFrom(a, pass)[i].app.selected == a.selected && RunFrom(a, pass)[i].app.dualFace == a.dualFace
  {
    forall i | 0 <= i < |RunFrom(a, pass)|
      ensures RunFrom(a, pass)[i].app.selected == a.selected && RunFrom(a, pass)[i].app.dualFace == a.dualFace
    {
      RunFromAt(a, pass, i);
    }
  }

  /** A run is flushed without a new target exactly at pass 3, and at pass 2
      when dual-face caustics is off; every other pass asks for a flush. So
      with dual-face caustics off, pass 2 draws nothing. */
  lemma RunFromFlushes(a: App, pass: nat)
    requires pass <= LastPass
    ensures forall i :: 0 <= i < |RunFrom(a, pass)| ==>
              (Flushed in RunFrom(a, pass)[i].signal <==> pass + i == 3 || (pass + i == 2 && !a.dualFace))
              && (NeedFlush in RunFrom(a, pass)[i].signal <==> Flushed !in RunFrom(a, pass)[i].signal)
  {
    forall i | 0 <= i < |RunFrom(a, pass)|
      ensures Flushed in RunFrom(a, pass)[i].signal <==> pass + i == 3 || (pass + i == 2 && !a.dualFace)
      ensures NeedFlush in RunFrom(a, pass)[i].signal <==> Flushed !in RunFrom(a, pass)[i].signal
    {
      RunFromAt(a, pass, i);
      SignalSchedule(StateAt(DoUpdate, a, pass, i), pass + i);
    }
  }

  /** Each shadow face is blurred exactly once in a run, at pass `face + 5`. */
  lemma RunFromShadowFilters(a: App, pass: nat)
    requires pass <= LastPass
    ensures forall i, f: Face :: 0 <= i < |RunFrom(a, pass)| ==>
              (Apply(ShadowFilter(f)) in RunFrom(a, pass)[i].events <==> pass + i == f + 5)
  {
    forall i, f: Face | 0 <= i < |RunFrom(a, pass)|
      ensures Apply(ShadowFilter(f)) in RunFrom(a, pass)[i].events <==> pass + i == f + 5
    {
      RunFromAt(a, pass, i);
      EventSchedule(StateAt(DoUpdate, a, pass, i), pass + i);
    }
  }

  /** Each shadow face is drawn at pass `face + 4`, from the stand-in light's
      camera for that face. */
  lemma RunFromShadowCameras(a: App, pass: nat)
    requires pass <= LastPass
    ensures forall i :: 0 <= i < |RunFrom(a, pass)| && 4 <= pass + i <= 9 ==>
              ShadowCubeBuffer in RunFrom(a, pass)[i].app.cameras
              && RunFrom(a, pass)[i].app.cameras[ShadowCubeBuffer] == SMCamera(DummyLight, pass + i - 4)
  {
    forall i | 0 <= i < |RunFrom(a, pass)| && 4 <= pass + i <= 9
      ensures ShadowCubeBuffer in RunFrom(a, pass)[i].app.cameras
      ensures RunFrom(a, pass)[i].app.cameras[ShadowCubeBuffer] == SMCamera(DummyLight, pass + i - 4)
    {
      RunFromAt(a, pass, i);
      EventSchedule(StateAt(DoUpdate, a, pass, i), pass + i);
    }
  }

  /** A run ends showing the chosen model and the plane, without the sky box. */
  lemma RunFromEnd(a: App, pass: nat)
    requires pass <= LastPass
    ensures SkyBox !in RunFrom(a, pass)[LastPass - pass].app.visible
    ensures ObjectOf(a.selected) in RunFrom(a, pass)[LastPass - pass].app.visible
    ensures PlaneObject in RunFrom(a, pass)[LastPass - pass].app.visible
  {
    RunFromAt(a, pass, LastPass - pass);
    VisibilitySchedule(StateAt(DoUpdate, a, pass, LastPass - pass), LastPass);
  }

  /** The caustics pass of a run uses the dual-face technique exactly when
      dual-face caustics is on, and the single-face technique otherwise. */
  lemma RunFromCausticsTechnique(a: App, pass: nat)
    requires pass <= LastPass
    ensures forall i :: 0 <= i < |RunFrom(a, pass)| && pass + i == 3 ==>
              (RunFrom(a, pass)[i].app.grid.technique == Some(GenDualFaceCausticsMap) <==> a.dualFace)
              && (RunFrom(a, pass)[i].app.grid.technique == Some(GenSingleFaceCausticsMap) <==> !a.dualFace)
  {
    forall i | 0 <= i < |RunFrom(a, pass)| && pass + i == 3
      ensures RunFrom(a, pass)[i].app.grid.technique == Some(GenDualFaceCausticsMap) <==> a.dualFace
      ensures RunFrom(a, pass)[i].app.grid.technique == Some(GenSingleFaceCausticsMap) <==> !a.dualFace
    {
      RunFromAt(a, pass, i);
      PassThree(StateAt(DoUpdate, a, pass, i));
    }
  }

  // ---------------------------------------------------------------------
  // The frame as written

  /** The as-written update also finishes at the last pass and keeps the settings. */
  lemma AsWrittenIsHostable()
    ensures FinishesAtLastPass(DoUpdateAsWritten) && KeepsSettings(DoUpdateAsWritten)
  {
  }

  /** The as-written updates from pass `pass` to the end of the frame. */
  function RunFromAsWritten(a: App, pass: nat): (r: seq<Update>)
    requires pass <= LastPass
    ensures |r| == 18 - pass
    ensures forall i :: 0 <= i < |r| ==> (Finished in r[i].signal <==> i == |r| - 1)
  {
    AsWrittenIsHostable();
    Run(DoUpdateAsWritten, a, pass)
  }

  /** The corrected and the as-written run hand every pass the same state. */
  lemma {:induction false} StateAtAgree(a: App, pass: nat, i: nat)
    requires pass + i <= LastPass
    ensures StateAt(DoUpdate, a, pass, i) == StateAt(DoUpdateAsWritten, a, pass, i)
    decreases i
  {
    if i > 0 {
      CorrectionOnlyAddsLastFilter(a, pass);
      StateAtAgree(DoUpdate(a, pass).app, pass + 1, i - 1);
    }
  }

  /** The corrected frame is the as-written one with the blur of shadow face 5
      added at pass 10: every update has the same state and signals, and the
      same events at every other pass. So RunFromKeepsSettings, RunFromFlushes,
      RunFromShadowCameras, RunFromEnd and RunFromCausticsTechnique describe
      the as-written frame as well. */
  lemma RunFromAsWrittenAgrees(a: App, pass: nat)
    requires pass <= LastPass
    ensures |RunFromAsWritten(a, pass)| == |RunFrom(a, pass)|
    ensures forall i :: 0 <= i < |RunFrom(a, pass)| ==>
              RunFromAsWritten(a, pass)[i].app == RunFrom(a, pass)[i].app
              && RunFromAsWritten(a, pass)[i].signal == RunFrom(a, pass)[i].signal
              && (pass + i != EnvStartPass ==> RunFromAsWritten(a, pass)[i].events == RunFrom(a, pass)[i].events)
  {
    forall i | 0 <= i < |RunFrom(a, pass)|
      ensures RunFromAsWritten(a, pass)[i].app == RunFrom(a, pass)[i].app
      ensures RunFromAsWritten(a, pass)[i].signal == RunFrom(a, pass)[i].signal
      ensures pass + i != EnvStartPass ==> RunFromAsWritten(a, pass)[i].events == RunFrom(a, pass)[i].events
    {
      RunFromAt(a, pass, i);
      AsWrittenIsHostable();
      RunAt(DoUpdateAsWritten, a, pass, i);
      StateAtAgree(a, pass, i);
      CorrectionOnlyAddsLastFilter(StateAt(DoUpdate, a, pass, i), pass + i);
    }
  }

  /** As written, no update of a frame blurs shadow face 5. */
  lemma AsWrittenFrameNeverFiltersLastShadowFace(a: App)
    ensures forall i :: 0 <= i < |RunFromAsWritten(a, 0)| ==>
              Apply(ShadowFilter(NegativeZ)) !in RunFromAsWritten(a, 0)[i].events
  {
    forall i | 0 <= i < |RunFromAsWritten(a, 0)|
      ensures Apply(ShadowFilter(NegativeZ)) !in RunFromAsWritten(a, 0)[i].events
    {
      AsWrittenIsHostable();
      RunAt(DoUpdateAsWritten, a, 0, i);
      AsWrittenNeverFiltersLastShadowFace(StateAt(DoUpdateAsWritten, a, 0, i), i);
    }
  }

  // ---------------------------------------------------------------------
  // The frame and the filter routing

  /** With the routing `InitCubeSM` sets up, the filter that writes cube face
      `t` runs exactly once in a corrected frame, at five passes past its
      index; so every face of the shadow cube is blurred once per frame. */
  lemma FrameFiltersEveryCubeFace(a: App, t: Face, requiresFlipping: bool)
    ensures FilterTarget(FilterTarget(t, requiresFlipping), requiresFlipping) == t
    ensures forall i :: 0 <= i < |Frame(a)| ==>
              (Apply(ShadowFilter(FilterTarget(t, requiresFlipping))) in Frame(a)[i].events
               <==> i == FilterTarget(t, requiresFlipping) + 5)
  {
    FilterTargetInvolution(t, requiresFlipping);
    RunFromShadowFilters(a, 0);
  }
}

=== FILE: caustics_passes.dfy ===
/** The renderables of the caustics sample and how each one picks its shader
    technique when the sequencer switches it to a logical pass: the receiving
    plane, the refractive model (all of whose meshes are switched together)
    and the caustics point grid. Techniques, lights and textures are abstract
    identifiers; their GPU state is not modelled. */
module CausticsPasses {
  import opened Wrappers

  /** The logical passes a renderable can be switched to. */
  datatype LogicalPass =
    | PositionPass
    | PositionNormalFrontPass
    | PositionNormalBackPass
    | SingleCausticsPass
    | DualCausticsPass
    | GenShadowPass
    | RefractPass
    | DefaultPass

  /** The spot light and the point light standing in for it while shadows
      are generated. */
  datatype Light = SpotLight | DummyLight

  datatype Texture = ShadowCubeTex | CausticsTexFiltered | SceneTexture | EnvCubeTex

  // ---------------------------------------------------------------------
  // The receiving plane

  datatype PlaneTechnique =
    | DistanceMapping2a     // preferred shading technique
    | DistanceMapping20     // fallback when the preferred one does not validate
    | PositionTex
    | PlaneGenCubeShadowMap

  /** The techniques the plane can shade with outside its position and shadow passes. */
  predicate IsShading(t: PlaneTechnique) {
    t == DistanceMapping2a || t == DistanceMapping20
  }

  /** Whether a technique validates on a device. Only the preferred shading
      technique may fail; the others are asserted to validate. */
  predicate Validates(t: PlaneTechnique, preferredValidates: bool) {
    t == DistanceMapping2a ==> preferredValidates
  }

  /** The plane's default technique is always a shading technique. */
  type ShadingTechnique = t: PlaneTechnique | IsShading(t) witness DistanceMapping2a

  datatype Plane = Plane(
    pass: Option<LogicalPass>,
    technique: PlaneTechnique,
    defaultTech: ShadingTechnique,
    light: Option<Light>,
    causticsLight: Option<Light>,
    smTexture: Option<Texture>,
    causticsMap: Option<Texture>)

  /** The plane's constructor as written: the default technique is recorded
      BEFORE the validation fallback, so it is always the preferred technique. */
  function PlaneInitAsWritten(preferredValidates: bool): (p: Plane)
    ensures p.pass.None?
    ensures p.defaultTech == DistanceMapping2a
    ensures Validates(p.technique, preferredValidates)
    ensures p.technique == p.defaultTech <==> preferredValidates
  {
    var technique := if preferredValidates then DistanceMapping2a else DistanceMapping20;
    Plane(None, technique, DistanceMapping2a, None, None, None, None)
  }

  /** The plane's constructor as evidently intended: the default technique is
      the one that survived validation. */
  function PlaneInit(preferredValidates: bool): (p: Plane)
    ensures p.pass.None?
    ensures p.technique == p.defaultTech
    ensures Validates(p.defaultTech, preferredValidates)
    ensures p.defaultTech == DistanceMapping2a <==> preferredValidates
  {
    var technique := if preferredValidates then DistanceMapping2a else DistanceMapping20;
    Plane(None, technique, technique, None, None, None, None)
  }

  /** `ReceivePlane::Pass`: the position technique for the position pass, the
      shadow technique for the shadow pass, the default technique otherwise. */
  function PlanePass(p: Plane, pass: LogicalPass): (r: Plane)
    ensures r == p.(pass := Some(pass), technique := r.technique)
    ensures r.technique == PositionTex <==> pass == PositionPass
    ensures r.technique == PlaneGenCubeShadowMap <==> pass == GenShadowPass
    ensures r.technique == p.defaultTech <==> pass != PositionPass && pass != GenShadowPass
  {
    var technique :=
      if pass == PositionPass then PositionTex
      else if pass == GenShadowPass then PlaneGenCubeShadowMap
      else p.defaultTech;
    p.(pass := Some(pass), technique := technique)
  }

  /** The plane after a sequence of pass switches. */
  function PlanePasses(p: Plane, passes: seq<LogicalPass>): (r: Plane)
    ensures r.defaultTech == p.defaultTech
    decreases |passes|
  {
    if passes == [] then p else PlanePasses(PlanePass(p, passes[0]), passes[1..])
  }

  /** With the constructor as written, on a device where the preferred
      technique fails validation, the first default-pass switch puts the
      failing technique back. */
  lemma AsWrittenDefaultPassRestoresInvalidTechnique()
    ensures PlanePass(PlaneInitAsWritten(false), DefaultPass).technique == DistanceMapping2a
    ensures !Validates(PlanePass(PlaneInitAsWritten(false), DefaultPass).technique, false)
    ensures Validates(PlaneInitAsWritten(false).technique, false)
  {
  }

  /** With the corrected constructor, the plane's technique validates after
      any sequence of pass switches. */
  lemma {:induction false} PlaneTechniqueAlwaysValidates(preferredValidates: bool, passes: seq<LogicalPass>)
    ensures Validates(PlanePasses(PlaneInit(preferredValidates), passes).technique, preferredValidates)
  {
    PlanePassesKeepValidity(PlaneInit(preferredValidates), passes, preferredValidates);
  }

  lemma {:induction false} PlanePassesKeepValidity(p: Plane, passes: seq<LogicalPass>, preferredValidates: bool)
    requires Validates(p.technique, preferredValidates)
    requires Validates(p.defaultTech, preferredValidates)
    ensures Validates(PlanePasses(p, passes).technique, preferredValidates)
    decreases |passes|
  {
    if passes != [] {
      PlanePassesKeepValidity(PlanePass(p, passes[0]), passes[1..], preferredValidates);
    }
  }

  // ---------------------------------------------------------------------
  // The refractive model

  datatype MeshTechnique = PosNormTexFront | PosNormTexBack | MeshGenCubeShadowMap | RefractEffect

  /** The shared state of a refractive model's meshes. Before the first pass
      switch no technique of the model's own has been chosen. */
  datatype RefractModel = RefractModel(
    pass: Option<LogicalPass>,
    technique: Option<MeshTechnique>,
    light: Option<Light>,
    sceneTexture: Option<Texture>,
    envCube: Option<Texture>)

  function RefractInit(): (m: RefractModel)
    ensures m.pass.None? && m.technique.None?
  {
    RefractModel(None, None, None, None, None)
  }

  /** The passes `RefractMesh::Pass` reacts to. */
  predicate MeshListed(pass: LogicalPass) {
    pass == PositionNormalFrontPass || pass == PositionNormalBackPass
    || pass == GenShadowPass || pass == RefractPass
  }

  /** `RefractMesh::Pass` on every mesh: front or back capture, shadow
      generation or refraction; any other pass leaves the technique as it was. */
  function MeshPass(m: RefractModel, pass: LogicalPass): (r: RefractModel)
    ensures r == m.(pass := Some(pass), technique := r.technique)
    ensures !MeshListed(pass) ==> r.technique == m.technique
    ensures MeshListed(pass) ==> r.technique.Some?
    ensures pass == PositionNormalFrontPass ==> r.technique == Some(PosNormTexFront)
    ensures pass == PositionNormalBackPass ==> r.technique == Some(PosNormTexBack)
    ensures pass == GenShadowPass ==> r.technique == Some(MeshGenCubeShadowMap)
    ensures pass == RefractPass ==> r.technique == Some(RefractEffect)
  {
    match pass
    case PositionNormalFrontPass => m.(pass := Some(pass), technique := Some(PosNormTexFront))
    case PositionNormalBackPass => m.(pass := Some(pass), technique := Some(PosNormTexBack))
    case GenShadowPass => m.(pass := Some(pass), technique := Some(MeshGenCubeShadowMap))
    case RefractPass => m.(pass := Some(pass), technique := Some(RefractEffect))
    case _ => m.(pass := Some(pass))
  }

  /** A pass the meshes do not react to keeps the technique of the last pass they did. */
  lemma UnlistedPassKeepsLastTechnique(m: RefractModel, listed: LogicalPass, other: LogicalPass)
    requires MeshListed(listed) && !MeshListed(other)
    ensures MeshPass(MeshPass(m, listed), other).technique == MeshPass(m, listed).technique
    ensures MeshPass(MeshPass(m, listed), other).pass == Some(other)
  {
  }

  // ---------------------------------------------------------------------
  // The caustics grid

  datatype GridTechnique = GenSingleFaceCausticsMap | GenDualFaceCausticsMap

  datatype Grid = Grid(pass: Option<LogicalPass>, technique: Option<GridTechnique>)

  function GridInit(): (g: Grid)
    ensures g.pass.None? && g.technique.None?
  {
    Grid(None, None)
  }

  /** `CausticsGrid::Pass`: the single- or dual-face caustics technique; any
      other pass leaves the technique as it was. */
  function GridPass(g: Grid, pass: LogicalPass): (r: Grid)
    ensures r.pass == Some(pass)
    ensures pass == SingleCausticsPass ==> r.technique == Some(GenSingleFaceCausticsMap)
    ensures pass == DualCausticsPass ==> r.technique == Some(GenDualFaceCausticsMap)
    ensures pass != SingleCausticsPass && pass != DualCausticsPass ==> r.technique == g.technique
  {
    if pass == SingleCausticsPass then Grid(Some(pass), Some(GenSingleFaceCausticsMap))
    else if pass == DualCausticsPass then Grid(Some(pass), Some(GenDualFaceCausticsMap))
    else g.(pass := Some(pass))
  }

  /** In the shadow pass the plane and the meshes both draw with the
      cube-shadow-map technique; in the default and refraction passes the
      plane shades with its default technique. */
  lemma SelectorsAgree(p: Plane, m: RefractModel)
    ensures PlanePass(p, GenShadowPass).technique == PlaneGenCubeShadowMap
    ensures MeshPass(m, GenShadowPass).technique == Some(MeshGenCubeShadowMap)
    ensures PlanePass(p, DefaultPass).technique == PlanePass(p, RefractPass).technique == p.defaultTech
  {
  }
}

=== FILE: caustics_update.dfy ===
/** The caustics sample's per-frame pass sequencer: for pass 0, 1, 2, ...
    of a frame it decides which scene objects are visible, which logical pass
    each renderable is switched to, which frame buffer is bound (and which
    light camera its viewport uses), which GPU events are issued, and whether
    the host must flush, may continue, or has finished the frame.

    GPU objects are abstract identifiers; clears, effect parameters and the
    drawing itself are not modelled. */
module CausticsUpdate {
  import opened Wrappers
  import opened CubeFaces
  import opened CausticsPasses

  /** The pass index is an unsigned 32-bit integer. */
  type Uint32 = x: int | 0 <= x < 0x1_0000_0000

  datatype SceneObject = PlaneObject | SkyBox | SphereObject | BunnyObject

  /** The two refractive models the user can choose between. */
  datatype Model = Sphere | Bunny

  function ObjectOf(m: Model): SceneObject {
    if m == Sphere then SphereObject else BunnyObject
  }

  function OtherModel(m: Model): Model {
    if m == Sphere then Bunny else Sphere
  }

  datatype FrameBuffer =
    | BackgroundFb            // plane depth as seen from the light
    | RefractObjFbFront       // front-face positions and normals of the model
    | RefractObjFbBack        // back-face positions and normals of the model
    | CausticsFb              // caustics accumulation
    | ShadowCubeBuffer        // one buffer reused for all six shadow faces
    | EnvCubeBuffer(face: Face)
    | SceneFb                 // off-screen scene colour behind the model
    | ScreenFb                // the default (screen) frame buffer

  /** A light's per-cube-face shadow camera. */
  datatype Camera = SMCamera(light: Light, face: Face)

  datatype PostProcess = CausticsBlur | ShadowFilter(filter: Face) | CopyToScreen

  /** GPU work a pass issues besides drawing the visible objects. */
  datatype Event =
    | OcclusionBegin
    | OcclusionEnd
    | ReadOcclusionResult
    | RenderCausticsGrid
    | Apply(pp: PostProcess)

  /** The flags of the value a pass returns to the host loop. */
  datatype Urv = NeedFlush | Flushed | Finished

  /** The state the sequencer reads and changes. `cameras` holds the viewport
      camera last given to each frame buffer; `envProbe` is the model the
      environment-capture light was last placed at. */
  datatype App = App(
    visible: set<SceneObject>,
    selected: Model,
    dualFace: bool,
    plane: Plane,
    sphere: RefractModel,
    bunny: RefractModel,
    grid: Grid,
    bound: Option<FrameBuffer>,
    cameras: map<FrameBuffer, Camera>,
    envProbe: Option<Model>)

  function Refract(a: App, m: Model): RefractModel {
    if m == Sphere then a.sphere else a.bunny
  }

  function WithRefract(a: App, m: Model, r: RefractModel): App {
    if m == Sphere then a.(sphere := r) else a.(bunny := r)
  }

  /** The first shadow-cube pass and the first environment-cube pass. */
  const SmStartPass: nat := 4
  const EnvStartPass: nat := 10

  datatype Update = Update(app: App, events: seq<Event>, signal: set<Urv>)

  function BindWithCamera(a: App, fb: FrameBuffer, camera: Camera): App {
    a.(bound := Some(fb), cameras := a.cameras[fb := camera])
  }

  /** The plane as the environment and scene-colour passes draw it: default
      technique, lit by the shadow stand-in light and the spot light's
      caustics, reading the shadow cube and the filtered caustics map. */
  function ShadedPlane(p: Plane): Plane
  {
    PlanePass(p, DefaultPass).(light := Some(DummyLight), causticsLight := Some(SpotLight),
                               smTexture := Some(ShadowCubeTex), causticsMap := Some(CausticsTexFiltered))
  }

  /** `DoUpdate` exactly as the sample writes it. */
  function DoUpdateAsWritten(a: App, pass: Uint32): (u: Update)
    ensures u.app.selected == a.selected && u.app.dualFace == a.dualFace && u.app.envProbe == a.envProbe
    ensures Finished in u.signal <==> pass >= 17
    ensures forall f: Face :: Apply(ShadowFilter(f)) in u.events <==> 5 <= pass <= 9 && f == pass - 5
  {
    var sel := a.selected;
    var obj := ObjectOf(sel);
    var lightCamera := SMCamera(SpotLight, 0);
    // Every pass starts by hiding the sky box and the refractive model.
    var a0 := a.(visible := a.visible - {SkyBox, obj});
    if pass == 0 then
      Update(BindWithCamera(a0.(plane := PlanePass(a0.plane, PositionPass)), BackgroundFb, lightCamera),
             [], {NeedFlush})
    else if pass == 1 then
      var a1 := WithRefract(a0.(visible := a0.visible - {PlaneObject} + {obj}),
                            sel, MeshPass(Refract(a0, sel), PositionNormalFrontPass));
      Update(BindWithCamera(a1, RefractObjFbFront, lightCamera), [OcclusionBegin], {NeedFlush})
    else if pass == 2 then
      if a.dualFace then
        var a1 := WithRefract(a0.(visible := a0.visible + {obj}),
                              sel, MeshPass(Refract(a0, sel), PositionNormalBackPass));
        Update(BindWithCamera(a1, RefractObjFbBack, lightCamera), [OcclusionEnd], {NeedFlush})
      else
        Update(a0, [OcclusionEnd], {Flushed})
    else if pass == 3 then
      var gridPass := if a.dualFace then DualCausticsPass else SingleCausticsPass;
      Update(BindWithCamera(a0.(grid := GridPass(a0.grid, gridPass)), CausticsFb, lightCamera),
             [ReadOcclusionResult, RenderCausticsGrid, Apply(CausticsBlur)], {Flushed})
    else if pass < EnvStartPass then
      // Blur the face drawn by the previous pass, then draw the next face.
      var filter := if pass > SmStartPass then [Apply(ShadowFilter(pass - SmStartPass - 1))] else [];
      var model := MeshPass(Refract(a0, sel), GenShadowPass).(light := Some(DummyLight));
      var plane := PlanePass(a0.plane, GenShadowPass).(light := Some(DummyLight));
      var a1 := WithRefract(a0.(visible := a0.visible + {obj, PlaneObject}, plane := plane), sel, model);
      Update(BindWithCamera(a1, ShadowCubeBuffer, SMCamera(DummyLight, pass - SmStartPass)),
             filter, {NeedFlush})
    else if pass <= 16 then
      var a1 := a0.(visible := a0.visible - {obj} + {PlaneObject, SkyBox}, plane := ShadedPlane(a0.plane));
      var fb := if pass < 16 then EnvCubeBuffer(pass - EnvStartPass) else SceneFb;
      Update(a1.(bound := Some(fb)), [], {NeedFlush})
    else
      var model := MeshPass(Refract(a0, sel), RefractPass).(sceneTexture := Some(SceneTexture),
                                                             envCube := Some(EnvCubeTex));
      var a1 := WithRefract(a0.(visible := a0.visible - {SkyBox} + {obj, PlaneObject},
                                plane := PlanePass(a0.plane, DefaultPass)), sel, model);
      Update(a1.(bound := Some(ScreenFb)), [Apply(CopyToScreen)], {NeedFlush, Finished})
  }

  /** The sequencer as evidently intended: as written, except that the first
      environment pass also blurs the sixth shadow face into the cube, which
      the as-written sequence never does. Its schedule is stated by the
      lemmas below. */
  function DoUpdate(a: App, pass: Uint32): (u: Update)
    // Nothing outside the sequencer's reach changes.
    ensures u.app.selected == a.selected && u.app.dualFace == a.dualFace && u.app.envProbe == a.envProbe
    ensures Finished in u.signal <==> pass >= 17
  {
    var u := DoUpdateAsWritten(a, pass);
    if pass == EnvStartPass then u.(events := [Apply(ShadowFilter(NegativeZ))] + u.events) else u
  }

  // ---------------------------------------------------------------------
  // The schedule, for every pass

  /** The continuation signal: flushed exactly at pass 3, and at pass 2 when
      dual-face caustics is off; every other pass asks for a flush. */
  lemma SignalSchedule(a: App, pass: Uint32)
    ensures Flushed in DoUpdate(a, pass).signal <==> pass == 3 || (pass == 2 && !a.dualFace)
    ensures NeedFlush in DoUpdate(a, pass).signal <==> Flushed !in DoUpdate(a, pass).signal
  {
  }

  /** Which objects each pass shows. The unselected model and its meshes are
      never touched. */
  lemma VisibilitySchedule(a: App, pass: Uint32)
    ensures SkyBox in DoUpdate(a, pass).app.visible <==> 10 <= pass <= 16
    ensures ObjectOf(a.selected) in DoUpdate(a, pass).app.visible <==>
              pass == 1 || (pass == 2 && a.dualFace) || 4 <= pass <= 9 || pass >= 17
    ensures PlaneObject in DoUpdate(a, pass).app.visible <==>
              if pass == 0 || pass == 2 || pass == 3 then PlaneObject in a.visible else pass != 1
    ensures ObjectOf(OtherModel(a.selected)) in DoUpdate(a, pass).app.visible
            <==> ObjectOf(OtherModel(a.selected)) in a.visible
    ensures Refract(DoUpdate(a, pass).app, OtherModel(a.selected)) == Refract(a, OtherModel(a.selected))
  {
  }

  /** The shadow faces and the occlusion query: passes 4..9 use the shadow
      camera of face `pass - 4`, shadow filter `f` runs exactly at pass
      `f + 5`, and the query begins at pass 1 and ends at pass 2. */
  lemma EventSchedule(a: App, pass: Uint32)
    ensures 4 <= pass <= 9 ==>
              ShadowCubeBuffer in DoUpdate(a, pass).app.cameras
              && DoUpdate(a, pass).app.cameras[ShadowCubeBuffer] == SMCamera(DummyLight, pass - 4)
    ensures forall f: Face :: Apply(ShadowFilter(f)) in DoUpdate(a, pass).events <==> pass == f + 5
    ensures OcclusionBegin in DoUpdate(a, pass).events <==> pass == 1
    ensures OcclusionEnd in DoUpdate(a, pass).events <==> pass == 2
  {
  }

  /** Pass 0 draws the plane's positions into the background buffer from the spot light. */
  lemma PassZero(a: App)
    ensures DoUpdate(a, 0).app.bound == Some(BackgroundFb)
    ensures DoUpdate(a, 0).app.cameras[BackgroundFb] == SMCamera(SpotLight, 0)
    ensures DoUpdate(a, 0).app.plane.technique == PositionTex
    ensures DoUpdate(a, 0).signal == {NeedFlush}
  {
  }

  /** Pass 1 draws only the chosen model's front faces, inside the occlusion query. */
  lemma PassOne(a: App)
    ensures DoUpdate(a, 1).app.bound == Some(RefractObjFbFront)
    ensures Refract(DoUpdate(a, 1).app, a.selected).technique == Some(PosNormTexFront)
    ensures PlaneObject !in DoUpdate(a, 1).app.visible && SkyBox !in DoUpdate(a, 1).app.visible
    ensures DoUpdate(a, 1).events == [OcclusionBegin]
  {
  }

  /** Pass 2 always ends the occlusion query. With dual-face caustics it draws
      the back faces into the back buffer and asks for a flush; without, it
      binds nothing, changes no technique, and reports itself flushed. */
  lemma PassTwo(a: App)
    ensures DoUpdate(a, 2).events == [OcclusionEnd]
    ensures NeedFlush in DoUpdate(a, 2).signal <==> a.dualFace
    ensures a.dualFace ==> DoUpdate(a, 2).app.bound == Some(RefractObjFbBack)
    ensures a.dualFace ==> Refract(DoUpdate(a, 2).app, a.selected).technique == Some(PosNormTexBack)
    ensures !a.dualFace ==> DoUpdate(a, 2).signal == {Flushed}
    ensures !a.dualFace ==> DoUpdate(a, 2).app.bound == a.bound
    ensures !a.dualFace ==> DoUpdate(a, 2).app == a.(visible := a.visible - {SkyBox, ObjectOf(a.selected)})
  {
  }

  /** Pass 3 picks the dual-face caustics technique exactly when dual-face
      caustics is on, reads the occlusion result, draws the grid, blurs the
      caustics map, and reports itself flushed. */
  lemma PassThree(a: App)
    ensures DoUpdate(a, 3).app.grid.technique == Some(GenDualFaceCausticsMap) <==> a.dualFace
    ensures DoUpdate(a, 3).app.grid.technique == Some(GenSingleFaceCausticsMap) <==> !a.dualFace
    ensures DoUpdate(a, 3).app.bound == Some(CausticsFb)
    ensures DoUpdate(a, 3).events == [ReadOcclusionResult, RenderCausticsGrid, Apply(CausticsBlur)]
    ensures DoUpdate(a, 3).signal == {Flushed}
  {
  }

  /** Passes 4..9 draw shadow face `pass - 4` (in 0..5) into the one shadow
      buffer with both objects in their shadow technique, after blurring the
      face `pass - 5` (in 0..4) that the previous pass drew. */
  lemma ShadowPasses(a: App, pass: Uint32)
    requires 4 <= pass <= 9
    ensures 0 <= pass - 4 <= 5
    ensures DoUpdate(a, pass).app.bound == Some(ShadowCubeBuffer)
    ensures DoUpdate(a, pass).app.cameras[ShadowCubeBuffer] == SMCamera(DummyLight, pass - 4)
    ensures DoUpdate(a, pass).app.plane.technique == PlaneGenCubeShadowMap
    ensures DoUpdate(a, pass).app.plane.light == Some(DummyLight)
    ensures Refract(DoUpdate(a, pass).app, a.selected).technique == Some(MeshGenCubeShadowMap)
    ensures Refract(DoUpdate(a, pass).app, a.selected).light == Some(DummyLight)
    ensures pass == 4 ==> DoUpdate(a, pass).events == []
    ensures pass > 4 ==> 0 <= pass - 5 <= 4 && DoUpdate(a, pass).events == [Apply(ShadowFilter(pass - 5))]
  {
  }

  /** The one-step lag: the face a shadow pass blurs is the face the pass
      before it drew, whatever the state either pass started from. */
  lemma ShadowFilterLag(a: App, b: App, pass: Uint32, f: Face)
    requires 5 <= pass <= 9
    requires Apply(ShadowFilter(f)) in DoUpdate(b, pass).events
    ensures DoUpdate(a, pass - 1).app.cameras[ShadowCubeBuffer] == SMCamera(DummyLight, f)
  {
    ShadowPasses(a, pass - 1);
  }

  /** Passes 10..15 draw environment face `pass - 10` (in 0..5); pass 16 draws
      the scene colour. Both hide the model and show the plane and sky box. */
  lemma EnvironmentPasses(a: App, pass: Uint32)
    requires 10 <= pass <= 16
    ensures pass < 16 ==> 0 <= pass - 10 <= 5 && DoUpdate(a, pass).app.bound == Some(EnvCubeBuffer(pass - 10))
    ensures pass == 16 ==> DoUpdate(a, pass).app.bound == Some(SceneFb)
    ensures ObjectOf(a.selected) !in DoUpdate(a, pass).app.visible
    ensures PlaneObject in DoUpdate(a, pass).app.visible && SkyBox in DoUpdate(a, pass).app.visible
    ensures DoUpdate(a, pass).app.plane.technique == a.plane.defaultTech
    ensures DoUpdate(a, pass).app.plane.smTexture == Some(ShadowCubeTex)
    ensures DoUpdate(a, pass).app.plane.causticsMap == Some(CausticsTexFiltered)
    ensures DoUpdate(a, pass).signal == {NeedFlush}
  {
  }

  /** Every pass from 17 on is the final one: the sky box stays hidden, the
      model refracts the captured scene colour and environment cube onto the
      screen, and the frame is finished. */
  lemma FinalPass(a: App, pass: Uint32)
    requires pass >= 17
    ensures SkyBox !in DoUpdate(a, pass).app.visible
    ensures ObjectOf(a.selected) in DoUpdate(a, pass).app.visible && PlaneObject in DoUpdate(a, pass).app.visible
    ensures Refract(DoUpdate(a, pass).app, a.selected).technique == Some(RefractEffect)
    ensures Refract(DoUpdate(a, pass).app, a.selected).sceneTexture == Some(SceneTexture)
    ensures Refract(DoUpdate(a, pass).app, a.selected).envCube == Some(EnvCubeTex)
    ensures DoUpdate(a, pass).app.bound == Some(ScreenFb)
    ensures DoUpdate(a, pass).events == [Apply(CopyToScreen)]
    ensures DoUpdate(a, pass).signal == {NeedFlush, Finished}
  {
  }

  /** The dual-face setting changes what passes 2 and 3 do, and nothing else. */
  lemma DualFaceOnlyAffectsPassesTwoAndThree(a: App, pass: Uint32)
    requires pass != 2 && pass != 3
    ensures DoUpdate(a.(dualFace := true), pass).app
         == DoUpdate(a.(dualFace := false), pass).app.(dualFace := true)
    ensures DoUpdate(a.(dualFace := true), pass).events == DoUpdate(a.(dualFace := false), pass).events
    ensures DoUpdate(a.(dualFace := true), pass).signal == DoUpdate(a.(dualFace := false), pass).signal
  {
  }

  // ---------------------------------------------------------------------
  // The as-written sequence and the sixth shadow face

  /** As written, no pass ever blurs shadow face 5 (-Z) into the shadow cube. */
  lemma AsWrittenNeverFiltersLastShadowFace(a: App, pass: Uint32)
    ensures Apply(ShadowFilter(NegativeZ)) !in DoUpdateAsWritten(a, pass).events
  {
  }

  /** The correction changes only the events of the first environment pass:
      at every pass the corrected sequencer leaves the as-written state and
      signals, and its events are the as-written ones, with the blur of
      shadow face 5 in front of them at pass 10. So each schedule lemma
      about `DoUpdate` that speaks of states or signals holds for the
      as-written sequencer too. */
  lemma CorrectionOnlyAddsLastFilter(a: App, pass: Uint32)
    ensures DoUpdate(a, pass).app == DoUpdateAsWritten(a, pass).app
    ensures DoUpdate(a, pass).signal == DoUpdateAsWritten(a, pass).signal
    ensures pass != EnvStartPass ==> DoUpdate(a, pass).events == DoUpdateAsWritten(a, pass).events
    ensures pass == EnvStartPass ==>
              DoUpdate(a, pass).events == [Apply(ShadowFilter(NegativeZ))] + DoUpdateAsWritten(a, pass).events
  {
  }

  /** As evidently intended, pass 10 blurs shadow face 5, which pass 9 drew. */
  lemma CorrectedFiltersLastShadowFace(a: App, b: App)
    ensures Apply(ShadowFilter(NegativeZ)) in DoUpdate(a, 10).events
    ensures DoUpdate(b, 9).app.cameras[ShadowCubeBuffer] == SMCamera(DummyLight, NegativeZ)
  {
  }

  // ---------------------------------------------------------------------
  // Choosing the refractive model

  /** The unselected model is hidden. */
  predicate OnlySelectedModelShown(a: App) {
    ObjectOf(OtherModel(a.selected)) !in a.visible
  }

  /** `ModelSelectionComboBox`: entry 0 chooses the sphere, any other entry the
      bunny; the old model is hidden, the new one shown, and the environment
      light is moved to the new model. */
  function SelectModel(a: App, index: nat): (r: App)
    ensures r.selected == Sphere <==> index == 0
    ensures ObjectOf(r.selected) in r.visible
    ensures a.selected != r.selected ==> ObjectOf(a.selected) !in r.visible
    ensures forall o :: o != ObjectOf(a.selected) && o != ObjectOf(r.selected) ==> (o in r.visible <==> o in a.visible)
    ensures r.envProbe == Some(r.selected)
    ensures r == a.(visible := r.visible, selected := r.selected, envProbe := r.envProbe)
  {
    var next := if index == 0 then Sphere else Bunny;
    a.(visible := a.visible - {ObjectOf(a.selected)} + {ObjectOf(next)}, selected := next, envProbe := Some(next))
  }

  /** Neither model switching nor any pass ever shows the unselected model. */
  lemma OnlySelectedModelShownPreserved(a: App, index: nat, pass: Uint32)
    requires OnlySelectedModelShown(a)
    ensures OnlySelectedModelShown(SelectModel(a, index))
    ensures OnlySelectedModelShown(DoUpdate(a, pass).app)
  {
    VisibilitySchedule(a, pass);
  }
}

=== FILE: cube_faces.dfy ===
/** Cube-map faces and the face routing of the shadow-map blur filters
    that the caustics sample sets up once, before any frame is drawn. */
module CubeFaces {

  /** A cube face index in the engine's order: +X, -X, +Y, -Y, +Z, -Z. */
  type Face = i: nat | i < 6

  const PositiveX: Face := 0
  const NegativeX: Face := 1
  const PositiveY: Face := 2
  const NegativeY: Face := 3
  const PositiveZ: Face := 4
  const NegativeZ: Face := 5

  predicate IsYFace(f: Face) {
    f == PositiveY || f == NegativeY
  }

  /** The cube face that shadow filter `i` finally writes. The filter is first
      pointed at face `i`; when the shadow frame buffer does not require
      flipping, the +Y and -Y filters are re-pointed at the opposite Y face. */
  function FilterTarget(i: Face, requiresFlipping: bool): (t: Face)
    ensures IsYFace(t) <==> IsYFace(i)
    ensures t == i <==> requiresFlipping || !IsYFace(i)
  {
    if !requiresFlipping && i == PositiveY then NegativeY
    else if !requiresFlipping && i == NegativeY then PositiveY
    else i
  }

  /** Building the routing table of the six filters, face by face. */
  method InitCubeSM(requiresFlipping: bool) returns (table: seq<Face>)
    ensures |table| == 6
    ensures forall i: Face :: table[i] == FilterTarget(i, requiresFlipping)
    ensures forall i: Face :: table[i] == i <==> requiresFlipping || !IsYFace(i)
    ensures forall t: Face :: t in table
  {
    table := [];
    var i := 0;
    while i < 6
      invariant 0 <= i <= 6 && |table| == i
      invariant forall j :: 0 <= j < i ==> table[j] == FilterTarget(j, requiresFlipping)
    {
      var target: Face := i;
      if !requiresFlipping {
        if i == PositiveY {
          target := NegativeY;
        } else if i == NegativeY {
          target := PositiveY;
        }
      }
      table := table + [target];
      i := i + 1;
    }
    forall t: Face
      ensures t in table
    {
      FilterTargetInvolution(t, requiresFlipping);
      assert table[FilterTarget(t, requiresFlipping)] == t;
    }
  }

  /** Routing twice returns to the start, so the routing is a permutation of the faces. */
  lemma FilterTargetInvolution(i: Face, requiresFlipping: bool)
    ensures FilterTarget(FilterTarget(i, requiresFlipping), requiresFlipping) == i
  {
  }

  /** No two filters write the same face. */
  lemma FilterTargetInjective(i: Face, j: Face, requiresFlipping: bool)
    requires FilterTarget(i, requiresFlipping) == FilterTarget(j, requiresFlipping)
    ensures i == j
  {
    FilterTargetInvolution(i, requiresFlipping);
    FilterTargetInvolution(j, requiresFlipping);
  }
}

=== FILE: mem_file.dfy ===
/** The in-memory file that the packed-file adapter extracts an entry into.
    Its implementation is not part of this model; it is given the
    conventional semantics of a growable byte buffer with a cursor:
    writes overwrite or extend at the cursor, reads return at most the bytes
    left after the cursor, seeks clamp to the end of the data. */
module MemFile {

  newtype U8 = x: int | 0 <= x < 256

  /** How a seek offset is interpreted (the file interface's seek modes). */
  datatype SeekMode = SeekBegin | SeekCurrent | SeekEnd

  datatype MemFile = MemFile(data: seq<U8>, pos: nat, open: bool)

  /** The cursor never runs past the data. */
  predicate Valid(f: MemFile) {
    f.pos <= |f.data|
  }

  /** A freshly constructed, empty, open file. */
  function Empty(): (f: MemFile)
    ensures Valid(f) && f.open && Length(f) == 0 && Tell(f) == 0
  {
    MemFile([], 0, true)
  }

  function Length(f: MemFile): nat { |f.data| }

  function Tell(f: MemFile): nat { f.pos }

  /** Write `bytes` at the cursor, overwriting what is there and growing the
      data if needed; the cursor ends just after the written bytes. */
  function Write(f: MemFile, bytes: seq<U8>): (r: MemFile)
    requires Valid(f)
    ensures Valid(r) && r.open == f.open
    ensures Tell(r) == Tell(f) + |bytes|
    ensures r.data[..f.pos] == f.data[..f.pos]
    ensures r.data[f.pos..f.pos + |bytes|] == bytes
    ensures Length(r) == if f.pos + |bytes| < |f.data| then |f.data| else f.pos + |bytes|
  {
    var tail := if f.pos + |bytes| < |f.data| then f.data[f.pos + |bytes|..] else [];
    var data := f.data[..f.pos] + bytes + tail;
    assert data[..f.pos] == f.data[..f.pos];
    assert data[f.pos..f.pos + |bytes|] == bytes;
    MemFile(data, f.pos + |bytes|, f.open)
  }

  /** Move the cursor back to the start; the data is untouched. */
  function Rewind(f: MemFile): (r: MemFile)
    requires Valid(f)
    ensures Valid(r) && r.data == f.data && r.open == f.open && Tell(r) == 0
  {
    f.(pos := 0)
  }

  /** Read up to `count` bytes from the cursor; returns the bytes read and
      the file with its cursor advanced past them. */
  function Read(f: MemFile, count: nat): (r: (seq<U8>, MemFile))
    requires Valid(f)
    ensures Valid(r.1) && r.1.data == f.data && r.1.open == f.open
    ensures |r.0| == if count < |f.data| - f.pos then count else |f.data| - f.pos
    ensures r.0 == f.data[f.pos..f.pos + |r.0|]
    ensures Tell(r.1) == Tell(f) + |r.0|
  {
    var n := if count < |f.data| - f.pos then count else |f.data| - f.pos;
    (f.data[f.pos..f.pos + n], f.(pos := f.pos + n))
  }

  /** Move the cursor `off` bytes from the start, the cursor or the end,
      clamped to the end of the data; returns the new position. */
  function Seek(f: MemFile, off: nat, from: SeekMode): (r: (nat, MemFile))
    requires Valid(f)
    ensures Valid(r.1) && r.1.data == f.data && r.1.open == f.open
    ensures r.0 == Tell(r.1)
    ensures from == SeekBegin && off <= |f.data| ==> r.0 == off
    ensures from == SeekEnd ==> r.0 == |f.data|
  {
    var base := match from
      case SeekBegin => 0
      case SeekCurrent => f.pos
      case SeekEnd => |f.data|;
    var p := if base + off < |f.data| then base + off else |f.data|;
    (p, f.(pos := p))
  }

  /** Mark the file closed; later reads are a caller error. */
  function Close(f: MemFile): (r: MemFile)
    ensures !r.open && r.data == f.data && r.pos == f.pos
  {
    f.(open := false)
  }

  /** Writing a byte sequence into an empty file and rewinding leaves exactly
      those bytes, with the cursor at the start. */
  lemma WriteRewindHoldsExactly(bytes: seq<U8>)
    ensures Rewind(Write(Empty(), bytes)) == MemFile(bytes, 0, true)
  {
    var w := Write(Empty(), bytes);
    assert w.data[0..|bytes|] == bytes;
    assert w.data == w.data[0..|bytes|];
  }

  /** Reading the whole length from the start returns the whole data. */
  lemma ReadAllFromStart(f: MemFile)
    requires Valid(f) && f.pos == 0
    ensures Read(f, Length(f)).0 == f.data
  {
    assert f.data[0..|f.data|] == f.data;
  }
}

=== FILE: packed_file.dfy ===
/** The virtual-file adapter that opens an entry inside a `.pkt` archive:
    the combined path is split at its rightmost ".pkt/", the archive is
    opened as a disk file, the entry is located and extracted in full into
    an in-memory file, and every later access is delegated to that file.

    The archive decoder and the disk file are not part of this model: a
    `Disk` maps each path the disk file can open to what the decoder makes
    of it (a corrupt archive, or a directory of entries each of which
    extracts to bytes or fails). */
module PackedFile {
  import opened Wrappers
  import MemFile

  type U8 = MemFile.U8

  // ---------------------------------------------------------------------
  // Path splitting

  /** The token that ends the archive part of a combined path. */
  const Marker: string := ".pkt/"

  /** `pat` occurs in `s` starting at index `k`. */
  predicate OccursAt(s: string, pat: string, k: int) {
    0 <= k && k + |pat| <= |s| && s[k..k + |pat|] == pat
  }

  /** The largest start index below `n` at which `pat` occurs in `s`. */
  function LastBelow(s: string, pat: string, n: nat): (r: Option<nat>)
    ensures r.Some? ==> r.value < n && OccursAt(s, pat, r.value)
    ensures r.Some? ==> forall k :: r.value < k < n ==> !OccursAt(s, pat, k)
    ensures r.None? ==> forall k :: 0 <= k < n ==> !OccursAt(s, pat, k)
    decreases n
  {
    if n == 0 then None
    else if OccursAt(s, pat, n - 1) then Some(n - 1)
    else LastBelow(s, pat, n - 1)
  }

  /** `std::string::rfind`: the start of the rightmost occurrence of `pat`. */
  function RFind(s: string, pat: string): (r: Option<nat>)
    ensures r.Some? ==> OccursAt(s, pat, r.value)
    ensures r.Some? ==> forall k :: r.value < k ==> !OccursAt(s, pat, k)
    ensures r.None? ==> forall k :: !OccursAt(s, pat, k)
  {
    LastBelow(s, pat, |s| + 1)
  }

  /** A combined path names an archive entry only if it contains ".pkt/". */
  predicate HasMarker(path: string) {
    RFind(path, Marker).Some?
  }

  /** An archive name as the split produces it: it ends in ".pkt". */
  predicate IsArchiveName(a: string) {
    |a| >= 4 && a[|a| - 4..] == ".pkt"
  }

  /** An entry name as the split produces it: it contains no ".pkt/". */
  ghost predicate IsEntryName(e: string) {
    forall k :: !OccursAt(e, Marker, k)
  }

  /** An occurrence inside a suffix is an occurrence in the whole string,
      shifted by where the suffix starts. */
  lemma OccursInSuffix(s: string, pat: string, i: nat, k: nat)
    requires i <= |s|
    ensures OccursAt(s[i..], pat, k) <==> OccursAt(s, pat, i + k)
  {
    if i + k + |pat| <= |s| {
      assert s[i..][k..k + |pat|] == s[i + k..i + k + |pat|];
    }
  }

  /** Split a combined path at its rightmost ".pkt/" into the archive name
      (up to and including ".pkt") and the entry name (everything after). */
  function SplitPath(path: string): (r: (string, string))
    requires HasMarker(path)
    ensures r.0 + "/" + r.1 == path
    ensures IsArchiveName(r.0) && IsEntryName(r.1)
  {
    var offset := RFind(path, Marker).value;
    var archive := path[..offset + 4];
    var entry := path[offset + 5..];
    assert path[offset..offset + 5] == Marker;
    assert archive[|archive| - 4..] == path[offset..offset + 4];
    assert archive + "/" + entry == path;
    forall k | 0 <= k
      ensures !OccursAt(entry, Marker, k)
    {
      OccursInSuffix(path, Marker, offset + 5, k);
    }
    (archive, entry)
  }

  /** Joining an archive name and an entry name with "/" and splitting again
      gives back the two names: the split inverts the join. */
  lemma {:induction false} SplitJoin(archive: string, entry: string)
    requires IsArchiveName(archive) && IsEntryName(entry)
    ensures HasMarker(archive + "/" + entry)
    ensures SplitPath(archive + "/" + entry) == (archive, entry)
  {
    var path := archive + "/" + entry;
    var o := |archive| - 4;
    assert path[o..o + 5] == Marker by {
      assert path[o..o + 4] == archive[o..];
    }
    assert OccursAt(path, Marker, o);
    forall k | o < k
      ensures !OccursAt(path, Marker, k)
    {
      if k <= |archive| {
        // The '/' after the archive name would have to sit inside the ".pkt"
        // part of the marker.
        assert path[|archive|] == '/';
        assert Marker[|archive| - k] != '/';
        assert k + 5 <= |path| ==> path[k..k + 5][|archive| - k] == path[|archive|];
      } else {
        assert path[|archive| + 1..] == entry;
        OccursInSuffix(path, Marker, |archive| + 1, k - |archive| - 1);
      }
    }
    var found := RFind(path, Marker);
    assert found.value == o;
    assert path[..o + 4] == archive;
    assert path[o + 5..] == entry;
  }

  /** `size_t` arithmetic: sums wrap modulo 2^64. */
  const SizeModulus: nat := 0x1_0000_0000_0000_0000

  /** `std::string::npos`, what `rfind` returns when the pattern is absent. */
  const NPos: nat := SizeModulus - 1

  function WrapSize(x: nat): (r: nat)
    ensures r < SizeModulus
    ensures x < SizeModulus ==> r == x
    ensures SizeModulus <= x < 2 * SizeModulus ==> r == x - SizeModulus
  {
    x % SizeModulus
  }

  /** `std::string::substr(pos, n)`: at most `n` characters from `pos`;
      throws `out_of_range` (here `None`) when `pos` is past the end. */
  function Substr(s: string, pos: nat, n: nat): (r: Option<string>)
    ensures r.None? <==> pos > |s|
    ensures r.Some? ==> pos + |r.value| <= |s| && |r.value| <= n && s[pos..pos + |r.value|] == r.value
    ensures r.Some? ==> pos + |r.value| == |s| || |r.value| == n
  {
    if pos > |s| then None
    else
      var len := if n < |s| - pos then n else |s| - pos;
      Some(s[pos..pos + len])
  }

  /** The split exactly as the adapter computes it, for any path: the offset
      of the rightmost ".pkt/", or `npos` when there is none, then the two
      substrings at `offset + 4` and `offset + 5` in wrapping arithmetic.
      With the marker this is `SplitPath`; without it the offsets wrap to 3
      and 4, so the "archive" is the first three characters, the character
      at index 3 is dropped, and a path shorter than four characters makes
      the second `substr` throw. No string is as long as `npos`. */
  function SplitAsWritten(path: string): (r: Option<(string, string)>)
    requires |path| < NPos
    ensures HasMarker(path) ==> r == Some(SplitPath(path))
    ensures !HasMarker(path) ==> (r.None? <==> |path| < 4)
    ensures !HasMarker(path) && r.Some? ==>
              |r.value.0| == 3 && !IsArchiveName(r.value.0) && r.value.0 + [path[3]] + r.value.1 == path
  {
    var offset := match RFind(path, Marker) case Some(k) => k case None => NPos;
    var pktName := Substr(path, 0, WrapSize(offset + 4));
    var fileName := Substr(path, WrapSize(offset + 5), NPos);
    assert HasMarker(path) ==> WrapSize(offset + 4) == offset + 4 && WrapSize(offset + 5) == offset + 5;
    assert HasMarker(path) ==> path[offset + 5..|path|] == path[offset + 5..];
    assert HasMarker(path) ==> pktName == Some(SplitPath(path).0) && fileName == Some(SplitPath(path).1);
    assert !HasMarker(path) ==> WrapSize(offset + 4) == 3 && WrapSize(offset + 5) == 4;
    assert !HasMarker(path) && |path| >= 4 ==> path == path[..3] + [path[3]] + path[4..];
    if pktName.Some? && fileName.Some? then Some((pktName.value, fileName.value)) else None
  }

  // ---------------------------------------------------------------------
  // The archive oracle

  /** What extracting one entry yields. */
  datatype Extraction = Extracted(bytes: seq<U8>) | ExtractFails

  /** What the decoder makes of an archive file. */
  datatype Archive = Corrupt | Directory(entries: map<string, Extraction>)

  /** The archives the disk file can open, by name. */
  type Disk = map<string, Archive>

  /** The bytes of `entry` inside `archive`, if the archive opens, decodes,
      holds the entry and the entry extracts. */
  function Lookup(disk: Disk, archive: string, entry: string): Option<seq<U8>> {
    if archive in disk && disk[archive].Directory? && entry in disk[archive].entries
       && disk[archive].entries[entry].Extracted?
    then Some(disk[archive].entries[entry].bytes)
    else None
  }

  // ---------------------------------------------------------------------
  // The adapter

  /** The adapter's state: the archive disk file it holds, and the
      in-memory file of the extracted entry. */
  datatype PackedFile = PackedFile(archive: Option<string>, file: Option<MemFile.MemFile>)

  predicate Valid(pf: PackedFile) {
    pf.file.Some? ==> MemFile.Valid(pf.file.value)
  }

  /** A default-constructed adapter holds nothing. */
  function Fresh(): (pf: PackedFile)
    ensures Valid(pf) && pf.archive.None? && pf.file.None?
  {
    PackedFile(None, None)
  }

  /** What `Open` does: returns `ok`, leaving the adapter in state `pf`, or
      lets the `out_of_range` of the path split escape to its caller. */
  datatype OpenResult = OpenResult(ok: bool, pf: PackedFile) | Throws

  /** `Close`: closes the in-memory file when there is one, otherwise does nothing. */
  function Close(pf: PackedFile): (r: PackedFile)
    requires Valid(pf)
    ensures Valid(r) && r.archive == pf.archive
    ensures pf.file.None? ==> r == pf
    ensures pf.file.Some? ==>
              r.file.Some? && !r.file.value.open && r.file.value.data == pf.file.value.data
  {
    if pf.file.Some? then pf.(file := Some(MemFile.Close(pf.file.value))) else pf
  }

  /** `Open`: split the path, open the archive, locate and extract the entry.
      Every failure after the split yields `false`; only the split itself
      can throw, for a path without ".pkt/" shorter than four characters. */
  function Open(pf: PackedFile, disk: Disk, path: string): (r: OpenResult)
    requires Valid(pf) && |path| < NPos
    ensures r.Throws? <==> SplitAsWritten(path).None?
    ensures r.Throws? <==> !HasMarker(path) && |path| < 4
    ensures r.OpenResult? ==> Valid(r.pf)
    ensures r.OpenResult? ==>
              var split := SplitAsWritten(path).value;
              && (r.ok <==> Lookup(disk, split.0, split.1).Some?)
              && (r.ok ==> r.pf == PackedFile(Some(split.0), Some(MemFile.MemFile(Lookup(disk, split.0, split.1).value, 0, true))))
              && (split.0 !in disk ==> r.pf == pf)
              && (split.0 in disk ==> r.pf.archive == Some(split.0))
              && (!r.ok ==> r.pf.file == pf.file || r.pf.file == Close(pf).file || r.pf.file == Some(MemFile.Empty()))
  {
    match SplitAsWritten(path)
    case None => Throws
    case Some(split) =>
      var (archive, entry) := split;
      if archive !in disk then
        OpenResult(false, pf)
      else
        var held := pf.(archive := Some(archive));
        match disk[archive]
        case Corrupt => OpenResult(false, held)
        case Directory(entries) =>
          var closed := Close(held);
          if entry !in entries then
            OpenResult(false, closed)
          else
            var mem := MemFile.Empty();
            match entries[entry]
            case ExtractFails => OpenResult(false, closed.(file := Some(mem)))
            case Extracted(bytes) =>
              MemFile.WriteRewindHoldsExactly(bytes);
              OpenResult(true, closed.(file := Some(MemFile.Rewind(MemFile.Write(mem, bytes)))))
  }

  /** `Length`: the in-memory file's length. */
  function Length(pf: PackedFile): (n: nat)
    requires Valid(pf) && pf.file.Some?
    ensures n == |pf.file.value.data|
  {
    MemFile.Length(pf.file.value)
  }

  /** `Tell`: the in-memory file's cursor. */
  function Tell(pf: PackedFile): (n: nat)
    requires Valid(pf) && pf.file.Some?
    ensures n <= Length(pf)
  {
    MemFile.Tell(pf.file.value)
  }

  /** `Read`: reads through the in-memory file; only the cursor moves. */
  function Read(pf: PackedFile, count: nat): (r: (seq<U8>, PackedFile))
    requires Valid(pf) && pf.file.Some? && pf.file.value.open
    ensures Valid(r.1) && r.1.archive == pf.archive && r.1.file.Some?
    ensures r.1.file.value.data == pf.file.value.data
    ensures |r.0| <= count && Tell(r.1) == Tell(pf) + |r.0|
    ensures r.0 == pf.file.value.data[Tell(pf)..Tell(r.1)]
    ensures |r.0| < count ==> Tell(r.1) == Length(pf)
    ensures r.1 == pf.(file := Some(pf.file.value.(pos := Tell(r.1))))
  {
    var (bytes, f) := MemFile.Read(pf.file.value, count);
    (bytes, pf.(file := Some(f)))
  }

  /** `Seek`: seeks the in-memory file; returns the new position. */
  function Seek(pf: PackedFile, off: nat, from: MemFile.SeekMode): (r: (nat, PackedFile))
    requires Valid(pf) && pf.file.Some?
    ensures Valid(r.1) && r.1.archive == pf.archive && r.1.file.Some?
    ensures r.1.file.value.data == pf.file.value.data
    ensures r.0 == Tell(r.1) && r.0 <= Length(pf)
    ensures from == MemFile.SeekBegin && off <= Length(pf) ==> r.0 == off
    ensures from == MemFile.SeekEnd ==> r.0 == Length(pf)
    ensures r.1 == pf.(file := Some(pf.file.value.(pos := r.0)))
  {
    var (p, f) := MemFile.Seek(pf.file.value, off, from);
    (p, pf.(file := Some(f)))
  }

  // ---------------------------------------------------------------------
  // Properties

  /** An archive that the disk cannot open leaves the adapter exactly as it was. */
  lemma MissingArchiveChangesNothing(pf: PackedFile, disk: Disk, archive: string, entry: string)
    requires Valid(pf) && IsArchiveName(archive) && IsEntryName(entry) && archive !in disk
    requires |archive + "/" + entry| < NPos
    ensures HasMarker(archive + "/" + entry)
    ensures Open(pf, disk, archive + "/" + entry).OpenResult?
    ensures !Open(pf, disk, archive + "/" + entry).ok
    ensures Open(pf, disk, archive + "/" + entry).pf == pf
  {
    SplitJoin(archive, entry);
  }

  /** A path without ".pkt/" never reaches a ".pkt" archive: the split
      names a three-character archive, so when the disk holds only archives
      named "*.pkt" such an open either throws or fails leaving the adapter
      as it was. */
  lemma NoMarkerNeverOpens(pf: PackedFile, disk: Disk, path: string)
    requires Valid(pf) && |path| < NPos && !HasMarker(path)
    requires forall a :: a in disk ==> IsArchiveName(a)
    ensures Open(pf, disk, path).Throws? <==> |path| < 4
    ensures Open(pf, disk, path).OpenResult? ==> !Open(pf, disk, path).ok && Open(pf, disk, path).pf == pf
  {
  }

  /** Round trip through the archive: an entry stored with known bytes, opened
      through the combined path, reads back as exactly those bytes, from
      position 0 and over its whole length. */
  lemma OpenReadRoundTrip(pf: PackedFile, disk: Disk, archive: string, entry: string, bytes: seq<U8>)
    requires Valid(pf) && IsArchiveName(archive) && IsEntryName(entry)
    requires archive in disk && disk[archive].Directory?
    requires entry in disk[archive].entries && disk[archive].entries[entry] == Extracted(bytes)
    requires |archive + "/" + entry| < NPos
    ensures HasMarker(archive + "/" + entry)
    ensures Open(pf, disk, archive + "/" + entry).OpenResult?
    ensures Open(pf, disk, archive + "/" + entry).ok
    ensures Length(Open(pf, disk, archive + "/" + entry).pf) == |bytes|
    ensures Tell(Open(pf, disk, archive + "/" + entry).pf) == 0
    ensures Read(Open(pf, disk, archive + "/" + entry).pf, |bytes|).0 == bytes
  {
    SplitJoin(archive, entry);
    var got := Open(pf, disk, archive + "/" + entry).pf;
    assert got.file == Some(MemFile.MemFile(bytes, 0, true));
    MemFile.ReadAllFromStart(got.file.value);
  }

  /** After any reads or seeks, seeking back to the start and reading the
      length returns the entry's bytes again. */
  lemma SeekStartReadsAll(pf: PackedFile)
    requires Valid(pf) && pf.file.Some? && pf.file.value.open
    ensures Read(Seek(pf, 0, MemFile.SeekBegin).1, Length(pf)).0 == pf.file.value.data
  {
    var s := Seek(pf, 0, MemFile.SeekBegin).1;
    MemFile.ReadAllFromStart(s.file.value);
  }
}

=== FILE: rect.dfy ===
/** The engine's four-coordinate rectangle value type, instantiated over
    unbounded integers. Every operation is total; no coordinate order
    (left <= right, top <= bottom) is assumed or enforced. */
module Rectangle {

  datatype Rect = Rect(left: int, top: int, right: int, bottom: int)

  /** `inner` lies coordinate-wise inside `outer`: the order in which
      intersection is the greatest lower bound and union the least upper bound. */
  predicate Encloses(outer: Rect, inner: Rect) {
    && outer.left <= inner.left
    && outer.top <= inner.top
    && inner.right <= outer.right
    && inner.bottom <= outer.bottom
  }

  function Max(a: int, b: int): int { if a < b then b else a }
  function Min(a: int, b: int): int { if b < a then b else a }

  /** `&=`: left and top take the larger, right and bottom the smaller
      coordinate, so the result is the largest rectangle inside both operands. */
  function Intersect(a: Rect, b: Rect): (r: Rect)
    ensures Encloses(a, r) && Encloses(b, r)
    ensures forall c :: Encloses(a, c) && Encloses(b, c) ==> Encloses(r, c)
  {
    Rect(Max(a.left, b.left), Max(a.top, b.top), Min(a.right, b.right), Min(a.bottom, b.bottom))
  }

  /** `|=`: left and top take the smaller, right and bottom the larger
      coordinate, so the result is the smallest rectangle around both operands. */
  function Union(a: Rect, b: Rect): (r: Rect)
    ensures Encloses(r, a) && Encloses(r, b)
    ensures forall c :: Encloses(c, a) && Encloses(c, b) ==> Encloses(c, r)
  {
    Rect(Min(a.left, b.left), Min(a.top, b.top), Max(a.right, b.right), Max(a.bottom, b.bottom))
  }

  /** Rect `+=`: component-wise sum of the four coordinates, so the extents add. */
  function Add(a: Rect, b: Rect): (r: Rect)
    ensures Width(r) == Width(a) + Width(b) && Height(r) == Height(a) + Height(b)
  {
    Rect(a.left + b.left, a.top + b.top, a.right + b.right, a.bottom + b.bottom)
  }

  /** Rect `-=`: component-wise difference of the four coordinates, so the extents subtract. */
  function Sub(a: Rect, b: Rect): (r: Rect)
    ensures Width(r) == Width(a) - Width(b) && Height(r) == Height(a) - Height(b)
  {
    Rect(a.left - b.left, a.top - b.top, a.right - b.right, a.bottom - b.bottom)
  }

  /** Unary `-`: every coordinate negated, which flips the sign of both extents
      and keeps emptiness. */
  function Negate(a: Rect): (r: Rect)
    ensures Width(r) == -Width(a) && Height(r) == -Height(a)
    ensures IsEmpty(r) <==> IsEmpty(a)
  {
    Rect(-a.left, -a.top, -a.right, -a.bottom)
  }

  /** `Width()`: how far the right edge lies from the left one. */
  function Width(a: Rect): (w: int)
    ensures a.left + w == a.right
    ensures w == 0 <==> a.left == a.right
  {
    a.right - a.left
  }

  /** `Height()`: how far the bottom edge lies from the top one. */
  function Height(a: Rect): (h: int)
    ensures a.top + h == a.bottom
    ensures h == 0 <==> a.top == a.bottom
  {
    a.bottom - a.top
  }

  /** `Size()`: the (width, height) pair. */
  function Size(a: Rect): (r: (int, int))
    ensures r == (0, 0) <==> IsEmpty(a)
    ensures a.left + r.0 == a.right && a.top + r.1 == a.bottom
  {
    (Width(a), Height(a))
  }

  /** Empty means both opposite corners coincide: zero width AND zero height,
      which is narrower than "zero area". */
  function IsEmpty(a: Rect): (r: bool)
    ensures r <==> Width(a) == 0 && Height(a) == 0
  {
    a.left == a.right && a.top == a.bottom
  }

  /** `==`: all four coordinates compared; agrees with value equality. */
  function Equal(a: Rect, b: Rect): (r: bool)
    ensures r <==> a == b
  {
    a.left == b.left && a.top == b.top && a.right == b.right && a.bottom == b.bottom
  }

  /** `!=`: the exact negation of `==`. */
  function NotEqual(a: Rect, b: Rect): (r: bool)
    ensures r <==> !Equal(a, b)
    ensures r <==> a != b
  {
    !Equal(a, b)
  }

  // ---------------------------------------------------------------------
  // Algebra of the operations

  lemma IntersectIdempotent(a: Rect)
    ensures Intersect(a, a) == a
  {
  }

  lemma UnionIdempotent(a: Rect)
    ensures Union(a, a) == a
  {
  }

  lemma IntersectCommutative(a: Rect, b: Rect)
    ensures Intersect(a, b) == Intersect(b, a)
  {
  }

  lemma UnionCommutative(a: Rect, b: Rect)
    ensures Union(a, b) == Union(b, a)
  {
  }

  lemma IntersectAssociative(a: Rect, b: Rect, c: Rect)
    ensures Intersect(Intersect(a, b), c) == Intersect(a, Intersect(b, c))
  {
  }

  lemma UnionAssociative(a: Rect, b: Rect, c: Rect)
    ensures Union(Union(a, b), c) == Union(a, Union(b, c))
  {
  }

  /** Intersection and union absorb each other, so together they form a lattice. */
  lemma Absorption(a: Rect, b: Rect)
    ensures Intersect(a, Union(a, b)) == a
    ensures Union(a, Intersect(a, b)) == a
  {
  }

  /** `(A & B) | (A & B) == A & B`. */
  lemma IntersectionStableUnderSelfUnion(a: Rect, b: Rect)
    ensures Union(Intersect(a, b), Intersect(a, b)) == Intersect(a, b)
  {
    UnionIdempotent(Intersect(a, b));
  }

  /** The operands are unchanged by intersection exactly when they already
      enclose each other the right way round. */
  lemma IntersectIsOrder(a: Rect, b: Rect)
    ensures Intersect(a, b) == b <==> Encloses(a, b)
    ensures Union(a, b) == a <==> Encloses(a, b)
  {
  }

  /** An intersection is never wider or taller than either operand, a union
      never narrower or shorter. */
  lemma ExtentBounds(a: Rect, b: Rect)
    ensures Width(Intersect(a, b)) <= Width(a) && Width(Intersect(a, b)) <= Width(b)
    ensures Height(Intersect(a, b)) <= Height(a) && Height(Intersect(a, b)) <= Height(b)
    ensures Width(Union(a, b)) >= Width(a) && Width(Union(a, b)) >= Width(b)
    ensures Height(Union(a, b)) >= Height(a) && Height(Union(a, b)) >= Height(b)
  {
  }

  lemma NegateInvolution(a: Rect)
    ensures Negate(Negate(a)) == a
  {
  }

  /** Negation turns intersection into union and back, because it reverses
      every coordinate comparison. */
  lemma NegateSwapsIntersectUnion(a: Rect, b: Rect)
    ensures Negate(Intersect(a, b)) == Union(Negate(a), Negate(b))
    ensures Negate(Union(a, b)) == Intersect(Negate(a), Negate(b))
  {
  }

  lemma AddSubRoundTrip(a: Rect, b: Rect)
    ensures Sub(Add(a, b), b) == a
    ensures Add(Sub(a, b), b) == a
  {
  }

  lemma AddCommutative(a: Rect, b: Rect)
    ensures Add(a, b) == Add(b, a)
  {
  }

  /** Emptiness is zero width together with zero height. */
  lemma IsEmptyIffZeroExtents(a: Rect)
    ensures IsEmpty(a) <==> Width(a) == 0 && Height(a) == 0
  {
  }

  /** Zero width alone does not make a rectangle empty. */
  lemma ZeroWidthNotEmpty(a: Rect)
    requires Width(a) == 0 && Height(a) != 0
    ensures !IsEmpty(a)
  {
  }
}

=== FILE: vertex_packing.dfy ===
/** The integer side of the receiving plane's vertex-attribute packing:
    after each float component has been scaled and cast to an unsigned
    32-bit integer, it is clamped to its field's range and shifted into a
    10:10:10:2 word (when the device takes that vertex format) or an
    8:8:8:8 word (otherwise). */
module VertexPacking {

  type Word = bv32

  /** The engine's clamp to [0, hi] on an unsigned value: the value itself
      when it is at most `hi`, otherwise `hi`. The lower bound 0 never binds
      for an unsigned value and is not a parameter. */
  function Clamp(v: Word, hi: Word): (r: Word)
    ensures r <= hi
    ensures v <= hi ==> r == v
    ensures hi < v ==> r == hi
  {
    if hi < v then hi else v
  }

  /** The field of `w` that starts at bit `shift`, selected by `mask`. */
  function Field(w: Word, shift: bv32, mask: Word): Word
    requires shift < 32
  {
    (w >> shift) & mask
  }

  /** A normal in 10:10:10:2 layout: x in bits 0..9, y in 10..19, z in 20..29. */
  function NormalA2BGR10(x: Word, y: Word, z: Word): (w: Word)
    ensures Field(w, 0, 0x3FF) == Clamp(x, 1023)
    ensures Field(w, 10, 0x3FF) == Clamp(y, 1023)
    ensures Field(w, 20, 0x3FF) == Clamp(z, 1023)
    ensures Field(w, 30, 0x3) == 0
  {
    Clamp(x, 1023) | (Clamp(y, 1023) << 10) | (Clamp(z, 1023) << 20)
  }

  /** A tangent in 10:10:10:2 layout: as a normal, with w in bits 30..31. */
  function TangentA2BGR10(x: Word, y: Word, z: Word, w: Word): (r: Word)
    ensures Field(r, 0, 0x3FF) == Clamp(x, 1023)
    ensures Field(r, 10, 0x3FF) == Clamp(y, 1023)
    ensures Field(r, 20, 0x3FF) == Clamp(z, 1023)
    ensures Field(r, 30, 0x3) == Clamp(w, 3)
  {
    Clamp(x, 1023) | (Clamp(y, 1023) << 10) | (Clamp(z, 1023) << 20) | (Clamp(w, 3) << 30)
  }

  /** A normal in 8:8:8:8 layout: x in bits 16..23, y in 8..15, z in 0..7, top byte zero. */
  function NormalARGB8(x: Word, y: Word, z: Word): (w: Word)
    ensures Field(w, 16, 0xFF) == Clamp(x, 255)
    ensures Field(w, 8, 0xFF) == Clamp(y, 255)
    ensures Field(w, 0, 0xFF) == Clamp(z, 255)
    ensures Field(w, 24, 0xFF) == 0
  {
    (Clamp(x, 255) << 16) | (Clamp(y, 255) << 8) | (Clamp(z, 255) << 0)
  }

  /** A tangent in 8:8:8:8 layout: as a normal, with w in the top byte. */
  function TangentARGB8(x: Word, y: Word, z: Word, w: Word): (r: Word)
    ensures Field(r, 16, 0xFF) == Clamp(x, 255)
    ensures Field(r, 8, 0xFF) == Clamp(y, 255)
    ensures Field(r, 0, 0xFF) == Clamp(z, 255)
    ensures Field(r, 24, 0xFF) == Clamp(w, 255)
  {
    (Clamp(x, 255) << 16) | (Clamp(y, 255) << 8) | (Clamp(z, 255) << 0) | (Clamp(w, 255) << 24)
  }

  /** A normal packs like a tangent whose w is zero, in either layout. */
  lemma NormalIsTangentWithZeroW(x: Word, y: Word, z: Word)
    ensures NormalA2BGR10(x, y, z) == TangentA2BGR10(x, y, z, 0)
    ensures NormalARGB8(x, y, z) == TangentARGB8(x, y, z, 0)
  {
  }

  /** Components already in range are packed without loss: two tangents pack
      to the same word only if their components are equal. */
  lemma TangentA2BGR10Injective(x: Word, y: Word, z: Word, w: Word, x': Word, y': Word, z': Word, w': Word)
    requires x <= 1023 && y <= 1023 && z <= 1023 && w <= 3
    requires x' <= 1023 && y' <= 1023 && z' <= 1023 && w' <= 3
    requires TangentA2BGR10(x, y, z, w) == TangentA2BGR10(x', y', z', w')
    ensures x == x' && y == y' && z == z' && w == w'
  {
  }

  lemma TangentARGB8Injective(x: Word, y: Word, z: Word, w: Word, x': Word, y': Word, z': Word, w': Word)
    requires x <= 255 && y <= 255 && z <= 255 && w <= 255
    requires x' <= 255 && y' <= 255 && z' <= 255 && w' <= 255
    requires TangentARGB8(x, y, z, w) == TangentARGB8(x', y', z', w')
    ensures x == x' && y == y' && z == z' && w == w'
  {
  }
}

=== FILE: wrappers.dfy ===
/** Optional value shared by the models. */
module Wrappers {

  /** A value that may be absent: a null pointer or an unset handle in the engine. */
  datatype Option<+T> = None | Some(value: T)
}
